=== FILE: README.md ===
# Best-price resolution of the Mercado Livre client, in Dafny

This project models the core of a small Mercado Livre marketing service
written in Go. The centre is the client's best-price resolution for a catalog
product (`GetProductBestPriceWithLink`). It reads `/products/{id}/items`,
whose body comes in one of three JSON shapes: an `{"items": [...]}` wrapper,
a bare array of listings, or a `{paging, results}` page. The shape is
selected in that fixed order. Every eligible listing is folded into a strict
running minimum. Follow-up pages are fetched as the first page's paging
triple dictates. The winner is then re-checked once against `/items/{id}`.

Around it the model covers:
- the price-only sibling `GetProductBestPrice`;
- `TopSoldByCategory`, which prices each category highlight and skips those
  that fail, with its field mappings;
- the service projection `TopTrendsByCategory`;
- `ShortDescriptionText`, which extracts text from polymorphic JSON;
- the in-memory OAuth token store and the token effects of the callback,
  logout and status handlers.

HTTP is an oracle. `Transport.Api` holds one total function per endpoint.
Each returns `RequestFailed`, `TransportFailed`, or a `Response` with a
status and a body (`None` when the body could not be read). JSON decoding is
abstract too. A listings body is an array that does or does not decode as
listings, an object seen through its `items`, `paging` and `results` keys
(each absent, malformed or present), or anything else. Prices are `real`,
because the code only compares them. The `math.MaxFloat64` sentinel is an
`Option`.

Modules: `Wrappers`, `JsonValue`, `Records` (record types), `Shape` (shape
selection and eligibility), `Accumulator` (running minimum), `Pagination`
(follow-up offsets), `Transport` (oracle and errors), `Resolver`,
`Scenarios` (worked resolutions), `Highlights`, `Marketing`,
`ProductDescription` and `TokenStore`.

## Model

| member | source | states |
|---|---|---|
| `Shape.Classify` | internal/api/meli_client.go:522-617 | The three shapes are tried in the order wrapper, bare array, paged. A shape is accepted only when it decodes and its list is non-empty. No shape (all lists empty, absent or malformed) is the unknown-format case. The accepted list and paging are those of the body; absent paging is the zero triple. |
| `Shape.WrapperShadowsPaging` | internal/api/meli_client.go:522-617 | An object carrying both non-empty `items` and non-empty `results` is read as the wrapper shape, so its paging never drives follow-ups. |
| `Shape.ItemCandidates` | internal/api/meli_client.go:528-553 | In the wrapper and bare shapes, a listing is a candidate exactly when its price is > 0 and its status is "active"; candidates keep page order. |
| `Shape.ResultCandidates` | internal/api/meli_client.go:590-607 | In the paged shape, only price <= 0 is filtered and status is never consulted; each candidate has empty title and permalink. |
| `Shape.ItemCandidatesAppend` | internal/api/meli_client.go:529-582 | Listings are visited in page order: the candidates of a concatenation are the candidates of each part, in order. The first-seen tie rule depends on this. |
| `Shape.ResultCandidatesAppend` | internal/api/meli_client.go:590-607 | Paged rows are visited in page order in the same way. |
| `Shape.Candidates` | internal/api/meli_client.go:528-614 | Every candidate of any page has a positive price. Paged candidates carry no title or permalink. Wrapper and bare candidates come from "active" listings. |
| `Shape.ShapesAgreeOnActiveListings` | internal/api/meli_client.go:522-617 | The same active listings yield the same candidates in the wrapper and bare shapes. The paged shape yields them too, minus title and permalink. |
| `Accumulator.Improve` | internal/api/meli_client.go:539-546 | One step never raises the best price and ends at or below the candidate's price. |
| `Accumulator.FoldBest` | internal/api/meli_client.go:529-551 | The fold result exists iff a best or a candidate existed. It is the old best or one of the candidates. It never rises above the old best, and it is <= every candidate folded. |
| `Accumulator.FoldBestIsFirstMinimum` | internal/api/meli_client.go:539-546 | Replacement happens only on a strictly lower price. So the fold ends with the first-seen candidate that reaches the minimum, or keeps the old best when nothing undercuts it. |
| `Accumulator.FirstMinimumIsUnique` | internal/api/meli_client.go:539-546 | That first-minimum description admits only one result, so it fully specifies the fold, ties included. |
| `Accumulator.FoldBestAppend` | internal/api/meli_client.go:518-546 | The running best is shared by all `processBody` calls. Folding pages one after another equals folding their concatenation. |
| `Accumulator.FoldBestIgnoresLabels` | internal/api/meli_client.go:539-546 | Only prices decide replacement: dropping titles and permalinks commutes with the fold. |
| `Accumulator.LowerPrice` | internal/api/meli_client.go:383-386 | The price-only step of `GetProductBestPrice` never rises and ends at or below the price seen. |
| `Accumulator.FoldLowest` | internal/api/meli_client.go:376-387 | The price-only fold is found iff something was seen, is a lower bound of every price, and is one of them or the old minimum. |
| `Accumulator.FoldLowestTracksFoldBest` | internal/api/meli_client.go:365-424 | The `found`/`min` pair of the price-only resolver always holds the price of the candidate fold. |
| `Pagination.OffsetsFrom` | internal/api/meli_client.go:645 | The loop's k-th offset is start + k*limit and lies below total. The first offset not taken is >= total. |
| `Pagination.FollowUpOffsets` | internal/api/meli_client.go:644-645 | Follow-ups exist only if total > 0 and limit > 0. They sit at offset + (k+1)*limit, all below total, and cover everything up to total. |
| `Pagination.FollowUpOffsetsIncrease` | internal/api/meli_client.go:645 | Follow-up offsets strictly increase, so no page is fetched twice. |
| `Pagination.TwentyFiveByTen` | internal/api/meli_client.go:644-676 | total=25, offset=0, limit=10 gives follow-ups at 10 and 20, so three fetches in all. |
| `Pagination.AddInt64` | internal/api/meli_client.go:645 | Go's `+` on 64-bit `int`: the result is in range, agrees with the sum modulo 2^64, and equals the sum when that fits. |
| `Pagination.AsWrittenOffsets` | internal/api/meli_client.go:644-645 | The as-written loop with wrap-around: it starts at the given offset, each next offset is the previous one plus limit wrapped to 64 bits, every visited offset passed the `offset < total` test, and it stops early only when the next wrapped offset reaches total. |
| `Pagination.AsWrittenFollowUps` | internal/api/meli_client.go:644-645 | The as-written follow-ups exist only when total > 0 and limit > 0. They start at the wrapped offset + limit, each next one adds limit with wrap-around, every one is below total, and the walk stops short of `n` only once the next wrapped offset reaches total. |
| `Pagination.AsWrittenOffsetsAgree` | internal/api/meli_client.go:645 | Without overflow, the as-written loop visits exactly the unbounded offsets. |
| `Pagination.AsWrittenFollowUpsAgree` | internal/api/meli_client.go:644-645 | When offset + limit and total + limit fit in 64 bits, the as-written follow-ups are exactly `FollowUpOffsets`. |
| `Pagination.OverflowCycleNeverExits` | internal/api/meli_client.go:645 | With total = 2^63-1 and limit = 2^62, the wrapped offsets cycle through four values below total, so the loop never exits. |
| `Pagination.OverflowingLoopNeverStops` | internal/api/meli_client.go:644-645 | For that paging the as-written loop issues at least n follow-ups for every n, the second at offset -2^63. |
| `Pagination.OverflowPagingIntended` | internal/api/meli_client.go:644-645 | Over unbounded integers the same paging gives one follow-up. |
| `Pagination.InitialStepWraps` | internal/api/meli_client.go:644-645 | As written, an offset at the top of the 64-bit range makes the initial `offset + limit` wrap to the most negative value, so follow-ups are requested where the intended walk has none. |
| `Resolver.FetchPage` | internal/api/meli_client.go:619-641 | A page succeeds iff the reply is 200 with a readable body in a known shape, and yields that shape. Every failure is an error of that request; a non-200 status is reported with its code. |
| `Resolver.FoldPages` | internal/api/meli_client.go:644-676 | The follow-up loop never raises the best price. Its winner is the incoming best or a positive-priced candidate. A failure is the error of one of the follow-up pages. |
| `Resolver.FetchAll` | internal/api/meli_client.go:644-676 | Reference walk without folding: it succeeds iff every offset's page fetches, and then has one page per offset, each being what fetching that offset gives. A failure is the error of the first failing page. |
| `Resolver.AllCandidates` | internal/api/meli_client.go:528-611 | Every candidate gathered from any page has a positive price. |
| `Resolver.FoldPagesIsBatchFold` | internal/api/meli_client.go:644-676 | Folding as pages arrive equals folding all pages' candidates at once. The first failing page's error is returned and nothing partial is kept. Later pages' paging is ignored. |
| `Resolver.PagesFetched` | internal/api/meli_client.go:619-676 | The whole walk is the first page as fetched, followed by the page fetched at each follow-up offset of the first page's paging, in order. It succeeds iff the first page and every follow-up page fetch, and a failure is the error of the first failing page. |
| `Resolver.BestCandidate` | internal/api/meli_client.go:619-681 | A resolved candidate has a positive price. A failing first page fails the call with that page's error. |
| `Resolver.BestCandidateIsFirstMinimum` | internal/api/meli_client.go:619-681 | Any failing page fails the whole call with that error. With no eligible listing on any page the call fails with "no active items". Otherwise the result is the first-seen cheapest eligible listing over all pages, <= every eligible price. |
| `Resolver.ConfirmAsWritten` | internal/api/meli_client.go:686-713 | As written, a transport error with no response (a timeout, a refused connection) dereferences a nil response. Rejection happens iff a 200 reply decodes as a listing whose status is not "active". |
| `Resolver.Confirm` | internal/api/meli_client.go:686-713 | Intended policy: only a decodable 200 reply with status not "active" rejects, carrying that status. A request-construction error, a transport error, another status or an undecodable body accept. |
| `Resolver.ConfirmDiffersOnlyOnTransport` | internal/api/meli_client.go:691-711 | The as-written and intended policies differ exactly on a transport error. |
| `Resolver.Validate` | internal/api/meli_client.go:686-718 | Validation is skipped for an empty item id. It fails iff the winner is confirmed inactive, with that status. Otherwise it returns the same candidate; no second-best is tried. It uses the corrected `Confirm`, so a transport error accepts (see "## Left out"). |
| `Resolver.ValidateAsWritten` | internal/api/meli_client.go:686-718 | As written, validation panics exactly when the winner has an id and its lookup fails in transport. When it returns, it fails iff the winner is confirmed inactive, and otherwise returns the same candidate. |
| `Resolver.ValidateAgreesUnlessPanic` | internal/api/meli_client.go:686-718 | Whenever the code as written returns, the corrected validation returns the same result; where it panics, the corrected one accepts the candidate. |
| `Resolver.GetProductBestPriceWithLink` | internal/api/meli_client.go:499-719 | A success is exactly the unvalidated best candidate, with a positive price. Earlier failures pass through unchanged. Validation can only add a "not active" failure for the winner's id, and it does so exactly when the winner has an id and a decodable 200 lookup says it is not "active". |
| `Resolver.FoldPagePrices` | internal/api/meli_client.go:456-489 | The price-only follow-up loop never raises the minimum, and fails only with the error of one of its pages. |
| `Resolver.GetProductBestPrice` | internal/api/meli_client.go:345-495 | A failing first page fails with its error. Any other failure is "no active items" or a follow-up page's error. |
| `Resolver.FoldPagePricesTracksFoldPages` | internal/api/meli_client.go:456-489 | The price-only follow-up loop returns the price of the candidate loop's result, or the same error. |
| `Resolver.BestPriceIsCandidatePrice` | internal/api/meli_client.go:345-495 | `GetProductBestPrice` returns the price of the candidate that `GetProductBestPriceWithLink` would validate, and fails with the same error when there is none. |
| `Scenarios.WrappedPageResolvesToActiveListing` | internal/api/meli_client.go:528-553 | A wrapped page with A at 100 active and B at 80 inactive, with A confirmed active, resolves to A at 100 with its title and permalink. |
| `Scenarios.PausedWinnerFailsClosed` | internal/api/meli_client.go:698-704 | If the winner is confirmed "paused", the call fails although a dearer active listing exists. |
| `Scenarios.PagedProductConsidersEveryPage` | internal/api/meli_client.go:644-676 | All three pages of total=25, limit=10 are folded. The cheapest row on the last page wins, a tie keeps the first row, and later pages' paging is ignored. |
| `Scenarios.EmptyListsAreUnknownFormat` | internal/api/meli_client.go:616 | An object whose items list is empty and which has no results fails as an unknown format, not as an empty success. |
| `Highlights.FirstProductPicture` | internal/api/meli_client.go:335-340 | The URL of the first picture, and "" only when there are no pictures or the first URL is empty. |
| `Highlights.MapProductToSearchItem` | internal/api/meli_client.go:311-321 | A product maps with name as title, domain as category and the first picture as thumbnail. Its price is 0 until the best price fills it. Sales, health and sale link stay empty. |
| `Highlights.MapItemToSearchItem` | internal/api/meli_client.go:323-333 | A listing maps field for field, but its sold quantity is dropped and health and sale link stay empty. |
| `Highlights.Receive` | internal/api/meli_client.go:167-199 | A detail lookup succeeds iff it gives 200 with a readable, decodable body; otherwise it fails with an error of that request. |
| `Highlights.GetHighlightDetail` | internal/api/meli_client.go:154-200 | A `PRODUCT` highlight succeeds exactly when its `/products/{id}` lookup does, and is that product's mapping (so it is unpriced). Any other type succeeds exactly when its `/items/{id}` lookup does, and is that listing's mapping. A failure is the lookup's error. No detail carries a sale link or sales. |
| `Highlights.PricedHighlight` | internal/api/meli_client.go:131-149 | A highlight is kept iff its detail and its best price both resolve. It then has the resolved positive price and the winner's permalink as sale link, and is otherwise the detail unchanged. |
| `Highlights.PriceHighlights` | internal/api/meli_client.go:130-150 | The loop keeps exactly the highlights that price successfully, skipping the rest. Every kept item has a positive price. |
| `Highlights.PriceHighlightsAppend` | internal/api/meli_client.go:130-150 | The loop keeps highlight order: it distributes over concatenation. |
| `Highlights.TopSoldByCategory` | internal/api/meli_client.go:85-153 | The call succeeds iff the highlight list gives 200 and decodes, and then returns the priced highlights in order. Otherwise it fails with an error of the highlight request. |
| `Highlights.TopSoldIgnoresLimit` | internal/api/meli_client.go:85-152 | The `limit` argument never affects the result. |
| `Marketing.TrendOf` | internal/service/marketing_service.go:33-42 | ID, title, price, thumbnail, sold quantity, health, category and permalink are copied. Status and sale link are always empty, and only those two fields can differ. |
| `Marketing.TopTrendsByCategory` | internal/service/marketing_service.go:25-65 | A client error comes back unchanged with no list. On success the output has the client's length and order, item by item the trend view, and nothing is persisted. |
| `Marketing.TopTrendsIgnoresLimit` | internal/service/marketing_service.go:23-26 | Although documented as the top N, the trends do not depend on `limit`: nothing is truncated. |
| `Marketing.TrendsDropSaleLinks` | internal/service/marketing_service.go:33-42 | Trends keep the resolved positive prices but lose the sale link set upstream. |
| `TokenStore.GetCurrentToken` | internal/handlers/oauth_handler.go:38-43 | The token read is "" exactly when the store holds no token. |
| `TokenStore.SetCurrentToken` | internal/handlers/oauth_handler.go:45-50 | After setting, the current token is the one set. |
| `TokenStore.GetSetRoundTrip` | internal/handlers/oauth_handler.go:38-50 | The store holds one value: setting what was read changes nothing, and of two sets the last wins. |
| `TokenStore.GetTokenFromContext` | internal/handlers/oauth_handler.go:52-79 | A non-empty memory token is returned and nothing changes. Otherwise a non-empty cookie is returned and promoted into memory. Otherwise the environment value is returned (maybe empty) and memory is unchanged. The result is empty iff all three sources are. |
| `TokenStore.LookupIsSticky` | internal/handlers/oauth_handler.go:56-70 | Once a lookup leaves a token in memory, later lookups return it and change nothing, whatever cookie or environment they see. |
| `TokenStore.HandleCallback` | internal/handlers/oauth_handler.go:108-152 | The callback sets the token and the cookie iff OAuth is configured, the code is non-empty and the exchange succeeds. Unconfigured or failed exchange gives 500 and an empty code gives 400, with the token and cookie untouched. |
| `TokenStore.HandleLogout` | internal/handlers/oauth_handler.go:171-183 | After logout the in-memory token is "" and the cookie is cleared. |
| `TokenStore.HandleAuthStatus` | internal/handlers/oauth_handler.go:154-169 | The status is authenticated iff the in-memory token is non-empty. |
| `TokenStore.LogoutForgetsToken` | internal/handlers/oauth_handler.go:171-178 | After logout the status is unauthenticated. A request without the cleared cookie falls back to the environment token. |
| `TokenStore.CallbackCookieRestoresToken` | internal/handlers/oauth_handler.go:142-147 | After a successful callback the status is authenticated iff the token is non-empty. The cookie written restores the same token into an empty store. |
| `ProductDescription.StringField` | internal/api/ProductsResponse.go:51-57 | A key yields a text exactly when it is present and its value is a JSON string. |
| `ProductDescription.JoinBlocksAfterText` | internal/api/ProductsResponse.go:57-68 | Once the output is non-empty, every later usable block text is appended after a newline. |
| `ProductDescription.JoinBlocksJoinsTexts` | internal/api/ProductsResponse.go:57-68 | The blocks loop joins, with newlines, the texts of object blocks with a string `text`, in order. Non-object blocks and blocks without such text are skipped. Empty texts before the first non-empty one add no newline. |
| `ProductDescription.JoinBlocksEmptyIff` | internal/api/ProductsResponse.go:57-72 | The joined blocks are empty exactly when every usable block text is empty. |
| `ProductDescription.AppendBlock` | internal/api/ProductsResponse.go:59-67 | A block without a usable text leaves the output unchanged. A usable text is appended, after a newline only when the output is already non-empty. |
| `ProductDescription.JoinBlocks` | internal/api/ProductsResponse.go:57-68 | The loop only appends: the starting output is a prefix of the result, and when no block has a usable text the output is unchanged. |
| `ProductDescription.ObjectText` | internal/api/ProductsResponse.go:50-74 | For a decoded object: a string `plain_text` is returned; else a string `text`; else the join of an array `blocks` whenever that join is non-empty; else the raw JSON. |
| `ProductDescription.ShortDescriptionText` | internal/api/ProductsResponse.go:37-78 | Empty input yields "". A JSON string yields its contents, and a JSON null yields "". Input that is not JSON, or is a boolean, number or array, yields the raw text. |
| `ProductDescription.ObjectKeyPrecedence` | internal/api/ProductsResponse.go:49-57 | For an object, a string `plain_text` wins over a string `text`, which wins over `blocks`. A non-string value is passed over. |
| `ProductDescription.ObjectBlocksOrRaw` | internal/api/ProductsResponse.go:57-75 | Without string `plain_text` or `text`, an object yields its joined block texts when one is non-empty. Otherwise, including when `blocks` is missing or not an array, it yields the raw JSON unchanged. |

## Left out

- HTTP mechanics are not modelled: request construction, headers, bearer authentication, the 10-second timeout, `io.ReadAll`, connection closing and context cancellation. A cancelled request shows up as a transport error of the oracle.
- Byte-level JSON decoding is not modelled. Decoding is abstracted to the outcomes the code distinguishes. Go's case-insensitive key matching falls inside that abstraction.
- `float64` is not modelled: prices are `real`. In Go, a listing priced exactly `math.MaxFloat64` can never beat the sentinel; the `Option` best lets it win.
- Resolver.GetProductBestPrice: it shares the classifier of the link resolver. The source's paged row type also decodes `currency_id` there, so a non-string `currency_id` would make only the price-only resolver reject a page. Its contract is weaker than the full equivalence with the link resolver, which is stated by `Resolver.BestPriceIsCandidatePrice`.
- Debug logging is not modelled, including the special case for one product id.
- The `token[:20]` slices in debug logs are not modelled. They panic on tokens shorter than 20 characters and are treated as log side effects.
- The `url.Parse` failure `break` in the follow-up loop is not modelled: it cannot happen for the fixed endpoint.
- During confirmation the body-read error is ignored and the bytes read so far are decoded. A reply with an unreadable body is modelled as undecodable, so the candidate is accepted.
- The `sync.RWMutex` of the token store is not modelled; the store is sequential.
- `RootCategories`, `PredictCategory` and the service's `SuggestCategories` are left out. They are single-shot passthroughs.
- The OAuth exchange and the authorization URL (internal/api/oauth.go) are left out. Their outcome is a parameter of the callback. `InitializeOAuth`'s environment reads are reduced to a `configured` flag. `HandleLogin`, `HandleAuthDebug` and the `ml_user_id` cookie are not modelled.
- Gin routing, the marketing handler and main.go are not modelled, and neither is the GORM trend repository. The service's persistence is commented out, which is why `TopTrendsByCategory` is a pure function.
- The `Pictures` and `Attributes` fields of `Item` are not modelled; no modelled operation reads them.
- Highlights.PricedHighlight: it prices through `Resolver.GetProductBestPriceWithLink`, which uses the corrected confirmation and unbounded offsets. Where the code panics at internal/api/meli_client.go:710 (a confirmation that fails with no response), the model keeps the highlight. Where the wrap at :645 loops forever, the model skips or keeps it after a finite walk.
- Highlights.PriceHighlights: it inherits both gaps from `Highlights.PricedHighlight`. In the code the panic is not an error that the loop at internal/api/meli_client.go:138-142 skips; it escapes the whole loop.
- Highlights.TopSoldByCategory: it inherits both gaps. In the code a confirmation panic aborts the call, and Gin's recovery answers 500; an endless page walk never answers. The model returns the priced list instead, so "succeeds iff the highlight list gives 200 and decodes" holds for the corrected behaviour only.
- Marketing.TopTrendsByCategory: it projects `Highlights.TopSoldByCategory` and so inherits the same two gaps.
- Apart from the two findings below, where the code differs from its documented intent, the model follows the code:
  - the paged shape does not filter on status;
  - a non-200 or undecodable confirmation accepts the candidate;
  - an unreadable page body is its own error.
- Resolver.Validate: it uses the corrected `Confirm`, so a transport error during confirmation accepts the candidate. The code instead dereferences the nil response at internal/api/meli_client.go:710 and panics; Gin's recovery then fails the whole request, not just one highlight. `Resolver.ValidateAsWritten` models that panic, and `Resolver.ValidateAgreesUnlessPanic` relates the two.
- Resolver.GetProductBestPriceWithLink: it is built on `Resolver.Validate`, so it inherits the accepted transport error above where the code panics.
- Resolver.BestCandidate: its follow-up offsets are `Pagination.FollowUpOffsets` over unbounded integers. The code's `offset += limit` wraps at 2^63 and can loop forever (`Pagination.OverflowingLoopNeverStops`); the initial `paging.Offset + paging.Limit` wraps the same way (`Pagination.InitialStepWraps`). The two agree whenever offset + limit and total + limit both fit in 64 bits (`Pagination.AsWrittenFollowUpsAgree`).
- Resolver.PagesFetched: it uses the same unbounded `Pagination.FollowUpOffsets`, with the same gap on 64-bit overflow.
- Resolver.GetProductBestPrice: its follow-up loop at internal/api/meli_client.go:457 also uses the unbounded `Pagination.FollowUpOffsets`, with the same gap on 64-bit overflow.

## Findings

| source | as written | input that shows it | evidently intended | confidence | as-written member | corrected member |
|---|---|---|---|---|---|---|
| internal/api/meli_client.go:691-711 | when the confirmation GET fails in transport, `resp` is nil, yet the `else` branch calls `resp.Body.Close()` on it | a transport error for which `Do` returns no response (a timeout, a refused connection) on `/items/{id}` for a winner with a non-empty id; a redirect-policy stop returns a response and is not affected | accept the unvalidated candidate, as the code already does for a request-construction error and a non-200 reply | high, not executed | `Resolver.ConfirmAsWritten` | `Resolver.Confirm` |
| internal/api/meli_client.go:645 | `offset += limit` on a 64-bit `int` wraps around, and the wrapped offset still passes `offset < total`; the initial `paging.Offset + paging.Limit` wraps the same way (`Pagination.InitialStepWraps`) | paging total=9223372036854775807, offset=0, limit=4611686018427387904: after offset 2^62 the next offset is -2^63, and the loop cycles forever (`Pagination.OverflowingLoopNeverStops`) | stop once the offset reaches total, which gives one follow-up at 2^62 (`Pagination.OverflowPagingIntended`) | medium, not executed | `Pagination.AsWrittenFollowUps` | `Pagination.FollowUpOffsets` |

=== FILE: accumulator.dfy ===
/** The running minimum of a best-price resolution. The Go code keeps a
    nil-able `bestPrice` beside a `minPrice` sentinel of `math.MaxFloat64`;
    here the best candidate is an `Option` and the sentinel is `None`. */
module Accumulator {
  import opened Wrappers
  import opened Records
  import opened Shape

  /** One comparison of the fold: a candidate replaces the best only when
      there is none yet or its price is strictly lower. */
  function Improve(best: Option<ProductPrice>, c: ProductPrice): (r: Option<ProductPrice>)
    ensures r.Some?
    ensures best.Some? ==> r.value.price <= best.value.price
    ensures r.value.price <= c.price
  {
    if best.None? || c.price < best.value.price then Some(c) else best
  }

  /** Folds the candidates of a page, in order, into the running best. */
  function FoldBest(best: Option<ProductPrice>, cs: seq<ProductPrice>): (r: Option<ProductPrice>)
    ensures r.None? <==> best.None? && cs == []
    ensures r.Some? ==> r == best || r.value in cs
    ensures best.Some? ==> r.Some? && r.value.price <= best.value.price
    ensures forall i :: 0 <= i < |cs| ==> r.Some? && r.value.price <= cs[i].price
    decreases |cs|
  {
    if cs == [] then best
    else
      var r := FoldBest(Improve(best, cs[0]), cs[1..]);
      assert forall i :: 1 <= i < |cs| ==> cs[i] == cs[1..][i - 1];
      r
  }

  /** Reference description of what a strict running minimum ends with: a
      lower bound of `best` and of every candidate that is either `best`
      itself, untouched because no candidate undercuts it, or the first
      candidate that reaches the minimum and undercuts `best`. */
  ghost predicate IsFirstMinimum(best: Option<ProductPrice>, cs: seq<ProductPrice>, r: Option<ProductPrice>)
  {
    && r.Some?
    && (best.Some? ==> r.value.price <= best.value.price)
    && (forall i :: 0 <= i < |cs| ==> r.value.price <= cs[i].price)
    && ((best.Some? && r == best && forall i :: 0 <= i < |cs| ==> best.value.price <= cs[i].price)
        || (exists i :: 0 <= i < |cs| && FirstReaching(best, cs, i) && r.value == cs[i]))
  }

  /** `cs[i]` undercuts `best` and every candidate before it is strictly dearer. */
  ghost predicate FirstReaching(best: Option<ProductPrice>, cs: seq<ProductPrice>, i: int)
    requires 0 <= i < |cs|
  {
    && (best.Some? ==> cs[i].price < best.value.price)
    && (forall j :: 0 <= j < i ==> cs[i].price < cs[j].price)
  }

  /** The fold computes exactly the first minimum: ties keep the first-seen candidate. */
  lemma {:induction false} FoldBestIsFirstMinimum(best: Option<ProductPrice>, cs: seq<ProductPrice>)
    requires best.Some? || cs != []
    ensures IsFirstMinimum(best, cs, FoldBest(best, cs))
    decreases |cs|
  {
    if cs == [] {
      return;
    }
    var r := FoldBest(best, cs);
    var b' := Improve(best, cs[0]);
    var tail := cs[1..];
    if tail != [] {
      FoldBestIsFirstMinimum(b', tail);
    }
    assert forall i :: 1 <= i < |cs| ==> cs[i] == tail[i - 1];
    if r == b' && (tail == [] || forall i :: 0 <= i < |tail| ==> b'.value.price <= tail[i].price) {
      if b' == best {
      } else {
        assert FirstReaching(best, cs, 0);
      }
    } else {
      var k :| 0 <= k < |tail| && FirstReaching(b', tail, k) && r.value == tail[k];
      assert FirstReaching(best, cs, k + 1);
    }
  }

  /** The first minimum is unique, so it is a complete specification of the fold. */
  lemma FirstMinimumIsUnique(best: Option<ProductPrice>, cs: seq<ProductPrice>, r1: Option<ProductPrice>, r2: Option<ProductPrice>)
    requires IsFirstMinimum(best, cs, r1) && IsFirstMinimum(best, cs, r2)
    ensures r1 == r2
  {
  }

  /** Folding two pages one after the other is folding their concatenation:
      the running best is carried across page boundaries. */
  lemma {:induction false} FoldBestAppend(best: Option<ProductPrice>, xs: seq<ProductPrice>, ys: seq<ProductPrice>)
    ensures FoldBest(best, xs + ys) == FoldBest(FoldBest(best, xs), ys)
    decreases |xs|
  {
    if xs != [] {
      assert (xs + ys)[0] == xs[0];
      assert (xs + ys)[1..] == xs[1..] + ys;
      assert FoldBest(best, xs + ys) == FoldBest(Improve(best, xs[0]), xs[1..] + ys);
      assert FoldBest(best, xs) == FoldBest(Improve(best, xs[0]), xs[1..]);
      FoldBestAppend(Improve(best, xs[0]), xs[1..], ys);
    } else {
      assert xs + ys == ys;
    }
  }

  /** Only prices decide the fold, so dropping titles and permalinks commutes with it. */
  lemma {:induction false} FoldBestIgnoresLabels(best: Option<ProductPrice>, cs: seq<ProductPrice>)
    ensures StripOption(FoldBest(best, cs)) == FoldBest(StripOption(best), StripAll(cs))
    decreases |cs|
  {
    if cs != [] {
      assert StripAll(cs)[0] == Strip(cs[0]);
      assert StripAll(cs)[1..] == StripAll(cs[1..]);
      FoldBestIgnoresLabels(Improve(best, cs[0]), cs[1..]);
    }
  }

  function StripOption(b: Option<ProductPrice>): Option<ProductPrice>
  {
    if b.Some? then Some(Strip(b.value)) else None
  }

  /** The price-only fold of `GetProductBestPrice`: a `found` flag beside a
      running `min`, here one optional price. */
  function LowerPrice(lowest: Option<real>, p: real): (r: Option<real>)
    ensures r.Some? && r.value <= p
    ensures lowest.Some? ==> r.value <= lowest.value
  {
    if lowest.None? || p < lowest.value then Some(p) else lowest
  }

  function FoldLowest(lowest: Option<real>, ps: seq<real>): (r: Option<real>)
    ensures r.None? <==> lowest.None? && ps == []
    ensures lowest.Some? ==> r.Some? && r.value <= lowest.value
    ensures forall i :: 0 <= i < |ps| ==> r.Some? && r.value <= ps[i]
    ensures r.Some? ==> r == lowest || r.value in ps
    decreases |ps|
  {
    if ps == [] then lowest
    else
      var r := FoldLowest(LowerPrice(lowest, ps[0]), ps[1..]);
      assert forall i :: 1 <= i < |ps| ==> ps[i] == ps[1..][i - 1];
      r
  }

  function PriceOf(b: Option<ProductPrice>): Option<real>
  {
    if b.Some? then Some(b.value.price) else None
  }

  function Prices(cs: seq<ProductPrice>): (ps: seq<real>)
    ensures |ps| == |cs|
    ensures forall i :: 0 <= i < |cs| ==> ps[i] == cs[i].price
  {
    if cs == [] then [] else [cs[0].price] + Prices(cs[1..])
  }

  /** The price-only fold always holds the price of the candidate fold. */
  lemma {:induction false} FoldLowestTracksFoldBest(best: Option<ProductPrice>, cs: seq<ProductPrice>)
    ensures FoldLowest(PriceOf(best), Prices(cs)) == PriceOf(FoldBest(best, cs))
    decreases |cs|
  {
    if cs != [] {
      assert Prices(cs)[1..] == Prices(cs[1..]);
      FoldLowestTracksFoldBest(Improve(best, cs[0]), cs[1..]);
    }
  }
}

=== FILE: description.dfy ===
/** `ShortDescriptionText`: a readable text from a product's
    `short_description`, which arrives either as a JSON string or as an
    object with `plain_text`, `text` or `blocks`. */
module ProductDescription {
  import opened Wrappers
  import opened JsonValue

  const PlainTextKey := "plain_text"
  const TextKey := "text"
  const BlocksKey := "blocks"

  /** The value under `key` when it is a JSON string (the `.(string)` assertion). */
  function StringField(fields: map<string, Json>, key: string): (r: Option<string>)
    ensures r.Some? <==> key in fields && fields[key].JString?
    ensures r.Some? ==> fields[key] == JString(r.value)
  {
    if key in fields && fields[key].JString? then Some(fields[key].s) else None
  }

  /** One iteration of the blocks loop: an object block with a string `text`
      is appended, after a newline only when the output already holds text;
      any other block is skipped. */
  function AppendBlock(out: string, block: Json): (r: string)
    ensures BlockText(block).None? ==> r == out
    ensures BlockText(block).Some? && out == "" ==> r == BlockText(block).value
    ensures BlockText(block).Some? && out != "" ==> r == out + "\n" + BlockText(block).value
  {
    match block
    case JObject(m) =>
      (match StringField(m, TextKey)
       case Some(t) => (if out != "" then out + "\n" else out) + t
       case None => out)
    case _ => out
  }

  /** The blocks loop over `blocks`, starting from `out`. */
  function JoinBlocks(out: string, blocks: seq<Json>): (r: string)
    ensures out <= r
    ensures BlockTexts(blocks) == [] ==> r == out
    decreases |blocks|
  {
    if blocks == [] then out else JoinBlocks(AppendBlock(out, blocks[0]), blocks[1..])
  }

  /** The text of a block the loop uses, if any. */
  function BlockText(block: Json): Option<string>
  {
    if block.JObject? then StringField(block.fields, TextKey) else None
  }

  /** The texts the loop uses, in block order. */
  function BlockTexts(blocks: seq<Json>): (ts: seq<string>)
    ensures |ts| <= |blocks|
  {
    if blocks == [] then []
    else
      var rest := BlockTexts(blocks[1..]);
      match BlockText(blocks[0])
      case Some(t) => [t] + rest
      case None => rest
  }

  /** Each text preceded by a newline, concatenated. */
  function NewlinePrefixed(ts: seq<string>): string
  {
    if ts == [] then "" else "\n" + ts[0] + NewlinePrefixed(ts[1..])
  }

  /** Lines joined by newlines. */
  function JoinLines(ts: seq<string>): string
  {
    if ts == [] then "" else ts[0] + NewlinePrefixed(ts[1..])
  }

  /** The texts from the first non-empty one on. */
  function DropLeadingEmpty(ts: seq<string>): (r: seq<string>)
    ensures r == [] || r[0] != ""
    ensures r == [] <==> forall i :: 0 <= i < |ts| ==> ts[i] == ""
  {
    if ts != [] && ts[0] == "" then DropLeadingEmpty(ts[1..]) else ts
  }

  lemma NewlinePrefixedCons(t: string, rest: seq<string>)
    ensures NewlinePrefixed([t] + rest) == "\n" + t + NewlinePrefixed(rest)
  {
    assert ([t] + rest)[1..] == rest;
  }

  lemma {:induction false} JoinBlocksAfterText(out: string, blocks: seq<Json>)
    requires out != ""
    ensures JoinBlocks(out, blocks) == out + NewlinePrefixed(BlockTexts(blocks))
    decreases |blocks|
  {
    if blocks != [] {
      var out' := AppendBlock(out, blocks[0]);
      var rest := BlockTexts(blocks[1..]);
      JoinBlocksAfterText(out', blocks[1..]);
      if BlockText(blocks[0]).Some? {
        var t := BlockText(blocks[0]).value;
        NewlinePrefixedCons(t, rest);
        assert BlockTexts(blocks) == [t] + rest;
        assert out + "\n" + t + NewlinePrefixed(rest) == out + ("\n" + t + NewlinePrefixed(rest));
      }
    }
  }

  /** The blocks loop joins the usable texts with newlines, ignoring empty
      texts that come before the first non-empty one (a newline goes in only
      once the output is non-empty). */
  lemma {:induction false} JoinBlocksJoinsTexts(blocks: seq<Json>)
    ensures JoinBlocks("", blocks) == JoinLines(DropLeadingEmpty(BlockTexts(blocks)))
    decreases |blocks|
  {
    if blocks != [] {
      var rest := BlockTexts(blocks[1..]);
      match BlockText(blocks[0])
      case Some(t) =>
        assert BlockTexts(blocks) == [t] + rest;
        if t == "" {
          assert AppendBlock("", blocks[0]) == "";
          JoinBlocksJoinsTexts(blocks[1..]);
        } else {
          assert AppendBlock("", blocks[0]) == t;
          JoinBlocksAfterText(t, blocks[1..]);
          assert ([t] + rest)[1..] == rest;
        }
      case None =>
        assert AppendBlock("", blocks[0]) == "";
        JoinBlocksJoinsTexts(blocks[1..]);
    }
  }

  /** The joined blocks are empty exactly when every usable text is empty. */
  lemma JoinBlocksEmptyIff(blocks: seq<Json>)
    ensures JoinBlocks("", blocks) == "" <==> forall t :: t in BlockTexts(blocks) ==> t == ""
  {
    JoinBlocksJoinsTexts(blocks);
    var ts := BlockTexts(blocks);
    var d := DropLeadingEmpty(ts);
    if d != [] {
      assert |JoinLines(d)| >= |d[0]| > 0;
    }
    if forall i :: 0 <= i < |ts| ==> ts[i] == "" {
      forall t | t in ts
        ensures t == ""
      {
        var i :| 0 <= i < |ts| && ts[i] == t;
      }
    } else {
      var i :| 0 <= i < |ts| && ts[i] != "";
      assert ts[i] in ts;
    }
  }

  /** The text of a decoded object: a string `plain_text`, else a string
      `text`, else the non-empty join of `blocks`, else the raw JSON. */
  function ObjectText(fields: map<string, Json>, raw: string): (r: string)
    ensures StringField(fields, PlainTextKey).Some? ==> r == StringField(fields, PlainTextKey).value
    ensures StringField(fields, PlainTextKey).None? && StringField(fields, TextKey).Some? ==>
      r == StringField(fields, TextKey).value
    ensures StringField(fields, PlainTextKey).None? && StringField(fields, TextKey).None? ==>
      (r == raw || (BlocksKey in fields && fields[BlocksKey].JArray? && r == JoinBlocks("", fields[BlocksKey].elems) && r != ""))
    ensures (StringField(fields, PlainTextKey).None? && StringField(fields, TextKey).None?
             && !(BlocksKey in fields && fields[BlocksKey].JArray?)) ==> r == raw
    ensures (StringField(fields, PlainTextKey).None? && StringField(fields, TextKey).None?
             && BlocksKey in fields && fields[BlocksKey].JArray? && JoinBlocks("", fields[BlocksKey].elems) != "")
            ==> r == JoinBlocks("", fields[BlocksKey].elems)
  {
    match StringField(fields, PlainTextKey)
    case Some(v) => v
    case None =>
      match StringField(fields, TextKey)
      case Some(v) => v
      case None =>
        if BlocksKey in fields && fields[BlocksKey].JArray? && JoinBlocks("", fields[BlocksKey].elems) != ""
        then JoinBlocks("", fields[BlocksKey].elems)
        else raw
  }

  /** A readable text from a short description. A JSON null decodes into a Go
      string without error, so it reads as "". */
  function ShortDescriptionText(raw: RawMessage): (s: string)
    ensures raw.text == "" ==> s == ""
    ensures raw.text != "" && raw.parsed.Some? && raw.parsed.value.JString? ==> s == raw.parsed.value.s
    ensures raw.text != "" && raw.parsed == Some(JNull) ==> s == ""
    ensures raw.text != "" && (raw.parsed.None? || raw.parsed.value.JBool? || raw.parsed.value.JNumber? || raw.parsed.value.JArray?)
      ==> s == raw.text
  {
    if |raw.text| == 0 then ""
    else match raw.parsed
      case Some(JString(v)) => v
      case Some(JNull) => ""
      case Some(JObject(fields)) => ObjectText(fields, raw.text)
      case _ => raw.text
  }

  /** For an object, `plain_text` wins over `text`, which wins over `blocks`;
      a key whose value is not a string is passed over. */
  lemma ObjectKeyPrecedence(text: string, fields: map<string, Json>)
    requires text != ""
    ensures StringField(fields, PlainTextKey).Some? ==>
      ShortDescriptionText(RawMessage(text, Some(JObject(fields)))) == StringField(fields, PlainTextKey).value
    ensures StringField(fields, PlainTextKey).None? && StringField(fields, TextKey).Some? ==>
      ShortDescriptionText(RawMessage(text, Some(JObject(fields)))) == StringField(fields, TextKey).value
  {
  }

  /** Without string `plain_text` or `text`, an object yields its block texts
      joined by newlines when one of them is non-empty, and its raw JSON
      otherwise (also when `blocks` is missing or not an array). */
  lemma ObjectBlocksOrRaw(text: string, fields: map<string, Json>)
    requires text != ""
    requires StringField(fields, PlainTextKey).None? && StringField(fields, TextKey).None?
    ensures var s := ShortDescriptionText(RawMessage(text, Some(JObject(fields))));
      if BlocksKey in fields && fields[BlocksKey].JArray?
         && exists t :: t in BlockTexts(fields[BlocksKey].elems) && t != ""
      then s == JoinLines(DropLeadingEmpty(BlockTexts(fields[BlocksKey].elems)))
      else s == text
  {
    if BlocksKey in fields && fields[BlocksKey].JArray? {
      JoinBlocksEmptyIff(fields[BlocksKey].elems);
      JoinBlocksJoinsTexts(fields[BlocksKey].elems);
    }
  }
}

=== FILE: highlights.dfy ===
/** The category top-sellers of `TopSoldByCategory`: the highlight list is
    read, each highlight's detail is looked up and priced through
    `GetProductBestPriceWithLink`, and highlights whose lookups fail are
    skipped. */
module Highlights {
  import opened Wrappers
  import opened Records
  import opened Transport
  import opened Resolver

  /** The highlight type served from `/products/{id}`; every other type is
      served from `/items/{id}`. */
  const ProductKind := "PRODUCT"

  /** The URL of a product's first picture, or "" when it has none. */
  function FirstProductPicture(pics: seq<ProductPicture>): (url: string)
    ensures url != "" ==> pics != [] && url == pics[0].url
    ensures pics != [] ==> url == pics[0].url
  {
    if |pics| > 0 then pics[0].url else ""
  }

  /** A catalog product as a search item. The price is left 0 for the
      best-price lookup to fill in; the thumbnail is the first picture, not
      the product's own `thumbnail`; sales and health are not known. */
  function MapProductToSearchItem(p: Product): (s: SearchItem)
    ensures s.id == p.id && s.title == p.name && s.categoryId == p.domainId
    ensures s.permalink == p.permalink && s.status == p.status
    ensures s.price == 0.0
    ensures s.thumbnail == FirstProductPicture(p.pictures)
    ensures s.soldQuantity == 0 && s.health == "" && s.linkVenda == ""
  {
    SearchItem(p.id, p.name, 0.0, FirstProductPicture(p.pictures), 0, "", p.domainId, p.permalink, p.status, "")
  }

  /** A listing as a search item. The listing's sold quantity is dropped. */
  function MapItemToSearchItem(i: Item): (s: SearchItem)
    ensures s.id == i.id && s.title == i.title && s.categoryId == i.categoryId && s.price == i.price
    ensures s.thumbnail == i.thumbnail && s.permalink == i.permalink && s.status == i.status
    ensures s.soldQuantity == 0 && s.health == "" && s.linkVenda == ""
  {
    SearchItem(i.id, i.title, i.price, i.thumbnail, 0, "", i.categoryId, i.permalink, i.status, "")
  }

  /** A detail reply: status 200 with a readable, decodable body, or the error. */
  function Receive<T>(reply: Reply<Decode<T>>, stage: Stage): (r: Result<T, Failure>)
    ensures r.Success? <==> reply.Response? && reply.status == StatusOK && reply.body.Some? && reply.body.value.Decoded?
    ensures r.Success? ==> r.value == reply.body.value.value
    ensures r.Failure? ==> FailedAt(r.error, stage)
  {
    match reply
    case RequestFailed => Failure(RequestError(stage))
    case TransportFailed => Failure(TransportError(stage))
    case Response(code, body) =>
      if code != StatusOK then Failure(UnexpectedStatus(stage, code))
      else if body.None? then Failure(ReadError(stage))
      else if body.value.Undecodable? then Failure(DecodeError(stage))
      else Success(body.value.value)
  }

  /** The search item of a highlight: a `PRODUCT` highlight is looked up as a
      catalog product, any other as a listing. */
  function GetHighlightDetail(api: Api, h: Highlight): (r: Result<SearchItem, Failure>)
    ensures h.kind == ProductKind ==>
      var got := Receive(api.products(h.id), HighlightDetail(h.id, h.kind));
      (r.Success? <==> got.Success?) && (r.Success? ==> r.value == MapProductToSearchItem(got.value))
      && (r.Failure? ==> r.error == got.error)
    ensures h.kind != ProductKind ==>
      var got := Receive(api.items(h.id), HighlightDetail(h.id, h.kind));
      (r.Success? <==> got.Success?) && (r.Success? ==> r.value == MapItemToSearchItem(got.value))
      && (r.Failure? ==> r.error == got.error)
    ensures r.Success? && h.kind == ProductKind ==> r.value.price == 0.0
    ensures r.Success? ==> r.value.linkVenda == "" && r.value.soldQuantity == 0
    ensures r.Failure? ==> FailedAt(r.error, HighlightDetail(h.id, h.kind))
  {
    var stage := HighlightDetail(h.id, h.kind);
    if h.kind == ProductKind then
      match Receive(api.products(h.id), stage)
      case Failure(e) => Failure(e)
      case Success(p) => Success(MapProductToSearchItem(p))
    else
      match Receive(api.items(h.id), stage)
      case Failure(e) => Failure(e)
      case Success(i) => Success(MapItemToSearchItem(i))
  }

  /** One iteration of the highlight loop: the detail with its price and
      sale link overwritten from the resolved best price, or `None` when
      either lookup fails and the highlight is skipped. */
  function PricedHighlight(api: Api, h: Highlight): (r: Option<SearchItem>)
    ensures r.Some? <==>
      (GetHighlightDetail(api, h).Success? && GetProductBestPriceWithLink(api, GetHighlightDetail(api, h).value.id).Success?)
    ensures r.Some? ==> r.value.price > 0.0
    ensures r.Some? ==>
      var best := GetProductBestPriceWithLink(api, GetHighlightDetail(api, h).value.id).value;
      r.value.price == best.price && r.value.linkVenda == best.permalink
      && r.value.(price := 0.0, linkVenda := "") == GetHighlightDetail(api, h).value.(price := 0.0, linkVenda := "")
  {
    match GetHighlightDetail(api, h)
    case Failure(_) => None
    case Success(item) =>
      match GetProductBestPriceWithLink(api, item.id)
      case Failure(_) => None
      case Success(best) => Some(item.(price := best.price, linkVenda := best.permalink))
  }

  /** The highlight loop: the priced highlights, in highlight order. */
  function PriceHighlights(api: Api, hs: seq<Highlight>): (r: seq<SearchItem>)
    ensures |r| <= |hs|
    ensures forall x :: x in r ==> x.price > 0.0
    ensures forall x :: x in r <==> exists h :: h in hs && PricedHighlight(api, h) == Some(x)
  {
    if hs == [] then []
    else
      var rest := PriceHighlights(api, hs[1..]);
      assert forall h :: h in hs <==> h == hs[0] || h in hs[1..];
      match PricedHighlight(api, hs[0])
      case None => rest
      case Some(x) => [x] + rest
  }

  /** The loop keeps highlight order: two runs of highlights priced one
      after the other give the concatenation of their results. */
  lemma {:induction false} PriceHighlightsAppend(api: Api, hs1: seq<Highlight>, hs2: seq<Highlight>)
    ensures PriceHighlights(api, hs1 + hs2) == PriceHighlights(api, hs1) + PriceHighlights(api, hs2)
    decreases |hs1|
  {
    if hs1 != [] {
      assert (hs1 + hs2)[0] == hs1[0];
      assert (hs1 + hs2)[1..] == hs1[1..] + hs2;
      PriceHighlightsAppend(api, hs1[1..], hs2);
    } else {
      assert hs1 + hs2 == hs2;
    }
  }

  /** The top sellers of a category: every highlight whose detail and best
      price both resolve, in highlight order. */
  function TopSoldByCategory(api: Api, categoryId: string, limit: int): (r: Result<seq<SearchItem>, Failure>)
    ensures r.Success? <==> var reply := api.highlights(categoryId);
      reply.Response? && reply.status == StatusOK && reply.body.Some? && reply.body.value.Decoded?
    ensures r.Success? ==> r.value == PriceHighlights(api, api.highlights(categoryId).body.value.value.content)
    ensures r.Failure? ==> FailedAt(r.error, CategoryHighlights(categoryId))
  {
    var stage := CategoryHighlights(categoryId);
    match api.highlights(categoryId)
    case RequestFailed => Failure(RequestError(stage))
    case TransportFailed => Failure(TransportError(stage))
    case Response(code, body) =>
      if code != StatusOK then Failure(UnexpectedStatus(stage, code))
      else if body.None? || body.value.Undecodable? then Failure(DecodeError(stage))
      else Success(PriceHighlights(api, body.value.value.content))
  }

  /** The `limit` argument has no effect on the result. */
  lemma TopSoldIgnoresLimit(api: Api, categoryId: string, limit1: int, limit2: int)
    ensures TopSoldByCategory(api, categoryId, limit1) == TopSoldByCategory(api, categoryId, limit2)
  {
  }
}

=== FILE: json_value.dfy ===
/** The values `encoding/json` decodes arbitrary JSON into (`interface{}`),
    and the `json.RawMessage` that keeps the undecoded text beside them. */
module JsonValue {
  import opened Wrappers

  /** A decoded JSON value. Objects are maps because Go's decoder keeps the
      last of several duplicate keys. */
  datatype Json =
    | JNull
    | JBool(b: bool)
    | JNumber(n: real)
    | JString(s: string)
    | JArray(elems: seq<Json>)
    | JObject(fields: map<string, Json>)

  /** A raw JSON message: its text, and what decoding that text yields
      (`None` when the text is not JSON). */
  datatype RawMessage = RawMessage(text: string, parsed: Option<Json>)
}

=== FILE: marketing.dfy ===
/** `TopTrendsByCategory` of the marketing service: a projection of the
    client's top sellers. Trend persistence is commented out in the service,
    so the projection is the whole operation and nothing is written. */
module Marketing {
  import opened Wrappers
  import opened Records
  import opened Transport
  import opened Highlights

  /** The trend view of a search item: every field but `status` and
      `linkVenda` is copied; those two are left empty. */
  function TrendOf(x: SearchItem): (t: SearchItem)
    ensures t.status == "" && t.linkVenda == ""
    ensures t.(status := x.status, linkVenda := x.linkVenda) == x
  {
    SearchItem(x.id, x.title, x.price, x.thumbnail, x.soldQuantity, x.health, x.categoryId, x.permalink, "", "")
  }

  /** The client's top sellers projected to trend views, or the client's
      error unchanged with no item list. */
  function TopTrendsByCategory(api: Api, categoryId: string, limit: int): (r: Result<seq<SearchItem>, Failure>)
    ensures TopSoldByCategory(api, categoryId, limit).Failure? ==>
      r == Failure(TopSoldByCategory(api, categoryId, limit).error)
    ensures TopSoldByCategory(api, categoryId, limit).Success? ==>
      var sold := TopSoldByCategory(api, categoryId, limit).value;
      r.Success? && |r.value| == |sold| && forall i :: 0 <= i < |sold| ==> r.value[i] == TrendOf(sold[i])
  {
    match TopSoldByCategory(api, categoryId, limit)
    case Failure(e) => Failure(e)
    case Success(sold) => Success(seq(|sold|, i requires 0 <= i < |sold| => TrendOf(sold[i])))
  }

  /** Although the service is documented as returning the top N, `limit`
      truncates nothing: every priced highlight of the category is returned,
      whatever limit is asked for. */
  lemma TopTrendsIgnoresLimit(api: Api, categoryId: string, limit1: int, limit2: int)
    ensures TopTrendsByCategory(api, categoryId, limit1) == TopTrendsByCategory(api, categoryId, limit2)
  {
    TopSoldIgnoresLimit(api, categoryId, limit1, limit2);
  }

  /** The trends keep the resolved positive prices but lose the sale link
      `TopSoldByCategory` set from the winning listing. */
  lemma TrendsDropSaleLinks(api: Api, categoryId: string, limit: int)
    requires TopTrendsByCategory(api, categoryId, limit).Success?
    ensures forall t :: t in TopTrendsByCategory(api, categoryId, limit).value ==> t.price > 0.0 && t.linkVenda == ""
  {
  }
}

=== FILE: pagination.dfy ===
/** The follow-up page offsets of a paged listings response. The first page
    is fetched without offset or limit; when its paging reports `total > 0`
    and `limit > 0`, pages are requested at `offset + limit`,
    `offset + 2*limit`, ... while the offset stays below `total`, each with
    the first page's limit. */
module Pagination {
  import opened Records

  /** The offsets `offset`, `offset + limit`, ... that lie below `total`. */
  function OffsetsFrom(offset: int, limit: int, total: int): (os: seq<int>)
    requires limit > 0
    ensures forall k :: 0 <= k < |os| ==> os[k] == offset + k * limit && os[k] < total
    ensures offset + |os| * limit >= total
    decreases total - offset
  {
    if offset < total then [offset] + OffsetsFrom(offset + limit, limit, total) else []
  }

  /** The offsets of the follow-up requests driven by the first page's paging. */
  function FollowUpOffsets(p: Paging): (os: seq<int>)
    ensures os != [] ==> p.total > 0 && p.limit > 0
    ensures forall k :: 0 <= k < |os| ==> os[k] == p.offset + (k + 1) * p.limit && os[k] < p.total
    ensures p.total > 0 && p.limit > 0 ==> p.offset + (|os| + 1) * p.limit >= p.total
  {
    if p.total > 0 && p.limit > 0 then OffsetsFrom(p.offset + p.limit, p.limit, p.total) else []
  }

  /** The follow-up offsets strictly increase, so no page is requested twice. */
  lemma FollowUpOffsetsIncrease(p: Paging, i: int, j: int)
    requires 0 <= i < j < |FollowUpOffsets(p)|
    ensures FollowUpOffsets(p)[i] < FollowUpOffsets(p)[j]
  {
    var os := FollowUpOffsets(p);
    assert os[j] - os[i] == (j - i) * p.limit;
  }

  /** total=25, offset=0, limit=10: follow-ups at 10 and 20, three fetches in all. */
  lemma TwentyFiveByTen()
    ensures FollowUpOffsets(Paging(25, 0, 10)) == [10, 20]
  {
  }

  const Int64Min: int := -0x8000_0000_0000_0000
  const Int64Max: int := 0x7fff_ffff_ffff_ffff
  const Int64Modulus: int := 0x1_0000_0000_0000_0000

  /** Go's `a + b` on two `int` values of a 64-bit platform: the sum wrapped
      into the signed 64-bit range. */
  function AddInt64(a: int, b: int): (r: int)
    ensures Int64Min <= r <= Int64Max
    ensures (r - (a + b)) % Int64Modulus == 0
    ensures Int64Min <= a + b <= Int64Max ==> r == a + b
  {
    (a + b - Int64Min) % Int64Modulus + Int64Min
  }

  /** The offsets visited by the first `n` iterations of the follow-up loop as
      written, where `offset += limit` wraps around on overflow. */
  function AsWrittenOffsets(offset: int, limit: int, total: int, n: nat): (os: seq<int>)
    ensures |os| <= n
    ensures forall k :: 0 <= k < |os| ==> os[k] < total
    ensures os != [] ==> os[0] == offset
    ensures forall k :: 0 < k < |os| ==> os[k] == AddInt64(os[k - 1], limit)
    ensures |os| < n ==> (os == [] && offset >= total) || (os != [] && AddInt64(os[|os| - 1], limit) >= total)
    decreases n
  {
    if n == 0 || offset >= total then []
    else [offset] + AsWrittenOffsets(AddInt64(offset, limit), limit, total, n - 1)
  }

  /** The first `n` follow-up offsets as written, starting from the wrapped `offset + limit`. */
  function AsWrittenFollowUps(p: Paging, n: nat): (os: seq<int>)
    ensures |os| <= n
    ensures os != [] ==> p.total > 0 && p.limit > 0
    ensures os != [] ==> os[0] == AddInt64(p.offset, p.limit)
    ensures forall k :: 0 < k < |os| ==> os[k] == AddInt64(os[k - 1], p.limit)
    ensures forall k :: 0 <= k < |os| ==> os[k] < p.total
    ensures p.total > 0 && p.limit > 0 && |os| < n ==>
      (os == [] && AddInt64(p.offset, p.limit) >= p.total) || (os != [] && AddInt64(os[|os| - 1], p.limit) >= p.total)
  {
    if p.total > 0 && p.limit > 0 then AsWrittenOffsets(AddInt64(p.offset, p.limit), p.limit, p.total, n) else []
  }

  predicate IsInt64(x: int)
  {
    Int64Min <= x <= Int64Max
  }

  /** Without overflow the loop as written visits exactly the unbounded offsets. */
  lemma {:induction false} AsWrittenOffsetsAgree(offset: int, limit: int, total: int, n: nat)
    requires limit > 0 && IsInt64(offset) && IsInt64(total) && total + limit <= Int64Max
    requires n >= |OffsetsFrom(offset, limit, total)|
    ensures AsWrittenOffsets(offset, limit, total, n) == OffsetsFrom(offset, limit, total)
    decreases total - offset
  {
    if offset < total {
      AsWrittenOffsetsAgree(offset + limit, limit, total, n - 1);
    }
  }

  /** When neither `offset + limit` nor `total + limit` overflows, the
      follow-up loop as written requests exactly `FollowUpOffsets`. */
  lemma AsWrittenFollowUpsAgree(p: Paging, n: nat)
    requires IsInt64(p.offset) && IsInt64(p.total) && IsInt64(p.limit)
    requires p.total + p.limit <= Int64Max && p.offset + p.limit <= Int64Max
    requires n >= |FollowUpOffsets(p)|
    ensures AsWrittenFollowUps(p, n) == FollowUpOffsets(p)
  {
    if p.total > 0 && p.limit > 0 {
      AsWrittenOffsetsAgree(p.offset + p.limit, p.limit, p.total, n);
    }
  }

  /** The paging of the overflow example: total is the largest `int`, limit is 2^62. */
  const OverflowPaging := Paging(Int64Max, 0, 0x4000_0000_0000_0000)

  /** The four offsets the overflowing loop cycles through. */
  predicate InOverflowCycle(offset: int)
  {
    offset == 0x4000_0000_0000_0000 || offset == Int64Min
    || offset == -0x4000_0000_0000_0000 || offset == 0
  }

  lemma {:induction false} OverflowCycleNeverExits(offset: int, n: nat)
    requires InOverflowCycle(offset)
    ensures |AsWrittenOffsets(offset, OverflowPaging.limit, OverflowPaging.total, n)| == n
    decreases n
  {
    if n > 0 {
      var next := AddInt64(offset, OverflowPaging.limit);
      assert InOverflowCycle(next);
      OverflowCycleNeverExits(next, n - 1);
    }
  }

  /** As written, the overflow example never leaves the loop: for every `n`
      it issues at least `n` follow-up requests, the second one at a negative
      offset. */
  lemma OverflowingLoopNeverStops(n: nat)
    ensures |AsWrittenFollowUps(OverflowPaging, n)| == n
    ensures n >= 2 ==> AsWrittenFollowUps(OverflowPaging, n)[1] == Int64Min
  {
    OverflowCycleNeverExits(0x4000_0000_0000_0000, n);
    if n >= 2 {
      assert AsWrittenOffsets(0x4000_0000_0000_0000, OverflowPaging.limit, OverflowPaging.total, n)
        == [0x4000_0000_0000_0000] + AsWrittenOffsets(Int64Min, OverflowPaging.limit, OverflowPaging.total, n - 1);
    }
  }

  /** Over unbounded integers the same paging yields a single follow-up. */
  lemma OverflowPagingIntended()
    ensures FollowUpOffsets(OverflowPaging) == [0x4000_0000_0000_0000]
  {
  }

  /** The first step of the loop wraps too: with the offset at the top of
      the range, `offset + limit` becomes the most negative value, which is
      below any positive total, so the code requests pages no intended walk
      asks for. */
  lemma InitialStepWraps()
    ensures AsWrittenFollowUps(Paging(5, Int64Max, 1), 2) == [Int64Min, Int64Min + 1]
    ensures FollowUpOffsets(Paging(5, Int64Max, 1)) == []
  {
    assert AddInt64(Int64Max, 1) == Int64Min;
    assert AddInt64(Int64Min, 1) == Int64Min + 1;
  }
}

=== FILE: records.dfy ===
/** The record types of the Mercado Livre client. They carry no behaviour. */
module Records {
  import opened JsonValue

  /** The only listing status that is eligible for a best price. */
  const Active := "active"

  /** A listing as decoded from `/items/{id}` or from the wrapped and bare
      listing shapes (`internal/api/ItemsResponse.go`). Go's `float64` price is
      a `real`: the model only compares prices. Pictures and attributes are
      not modelled. */
  datatype Item = Item(
    id: string,
    title: string,
    categoryId: string,
    price: real,
    currencyId: string,
    availableQty: int,
    soldQty: int,
    condition: string,
    permalink: string,
    thumbnail: string,
    sellerId: int,
    status: string)

  /** One row of the paged `{paging, results}` shape: it has no title,
      permalink or status. */
  datatype PagedResult = PagedResult(itemId: string, price: real, condition: string)

  /** The paging triple of the paged shape. */
  datatype Paging = Paging(total: int, offset: int, limit: int)

  /** Go's zero `pagingInfo`, returned for the unpaged shapes. */
  const NoPaging := Paging(0, 0, 0)

  /** The winning listing of a best-price resolution. */
  datatype ProductPrice = ProductPrice(price: real, itemId: string, title: string, permalink: string)

  /** The listing summary served to the dashboard. */
  datatype SearchItem = SearchItem(
    id: string,
    title: string,
    price: real,
    thumbnail: string,
    soldQuantity: int,
    health: string,
    categoryId: string,
    permalink: string,
    status: string,
    linkVenda: string)

  datatype ProductPicture = ProductPicture(id: string, url: string, maxWidth: int, maxHeight: int)

  /** A catalog product as decoded from `/products/{id}`. */
  datatype Product = Product(
    id: string,
    catalogProductId: string,
    status: string,
    domainId: string,
    permalink: string,
    name: string,
    familyName: string,
    kind: string,
    brand: string,
    model: string,
    color: string,
    thumbnail: string,
    pictures: seq<ProductPicture>,
    shortDescription: RawMessage,
    createdAt: string,
    updatedAt: string)

  /** One entry of a category highlight list; `kind` is `"PRODUCT"` for
      catalog products and anything else for plain listings. */
  datatype Highlight = Highlight(id: string, position: int, kind: string)

  datatype HighlightQuery = HighlightQuery(highlightType: string, criteria: string, id: string)

  datatype HighlightResponse = HighlightResponse(queryData: HighlightQuery, content: seq<Highlight>)
}

=== FILE: resolver.dfy ===
/** Best-price resolution for a catalog product: `GetProductBestPriceWithLink`
    and its price-only sibling `GetProductBestPrice`. The first listings page
    is fetched and its shape selected, follow-up pages are fetched as its
    paging dictates, every eligible listing is folded into a running minimum,
    and the winner is re-checked once against `/items/{id}`. */
module Resolver {
  import opened Wrappers
  import opened Records
  import opened Shape
  import opened Accumulator
  import opened Pagination
  import opened Transport

  /** The request a listings page comes from. */
  function PageStage(productId: string, query: Option<PageQuery>): Stage
  {
    if query.Some? then ProductItemsPage(productId, query.value.offset) else ProductItems(productId)
  }

  /** A listings reply is usable: status 200, a readable body, a known shape. */
  predicate PageAccepted(reply: Reply<ListingsBody>)
  {
    reply.Response? && reply.status == StatusOK && reply.body.Some? && Classify(reply.body.value).Some?
  }

  /** Fetches one listings page and selects its shape. */
  function FetchPage(api: Api, productId: string, query: Option<PageQuery>): (r: Result<Parsed, Failure>)
    ensures r.Success? <==> PageAccepted(api.listings(productId, query))
    ensures r.Success? ==> Some(r.value) == Classify(api.listings(productId, query).body.value)
    ensures r.Failure? ==> FailedAt(r.error, PageStage(productId, query))
    ensures r.Failure? && api.listings(productId, query).Response? && api.listings(productId, query).status != StatusOK
      ==> r.error == UnexpectedStatus(PageStage(productId, query), api.listings(productId, query).status)
  {
    var stage := PageStage(productId, query);
    match api.listings(productId, query)
    case RequestFailed => Failure(RequestError(stage))
    case TransportFailed => Failure(TransportError(stage))
    case Response(code, body) =>
      if code != StatusOK then Failure(UnexpectedStatus(stage, code))
      else if body.None? then Failure(ReadError(stage))
      else match Classify(body.value)
        case None => Failure(UnknownFormat(stage))
        case Some(page) => Success(page)
  }

  /** The paging a page drives follow-ups with; the unpaged shapes report none. */
  function PagingOf(page: Parsed): Paging
  {
    if page.Paged? then page.paging else NoPaging
  }

  /** The follow-up loop: each page at `offsets` is fetched with the first
      page's `limit`, shape-selected and folded into `best`; the paging those
      pages report is ignored, and the first failing page aborts the loop. */
  function FoldPages(api: Api, productId: string, limit: int, offsets: seq<int>, best: Option<ProductPrice>)
    : (r: Result<Option<ProductPrice>, Failure>)
    ensures r.Success? && best.Some? ==> r.value.Some? && r.value.value.price <= best.value.price
    ensures r.Success? && r.value.Some? ==> r.value == best || r.value.value.price > 0.0
    ensures r.Failure? ==> exists k :: 0 <= k < |offsets| && FailedAt(r.error, ProductItemsPage(productId, offsets[k]))
    decreases |offsets|
  {
    if offsets == [] then Success(best)
    else
      match FetchPage(api, productId, Some(PageQuery(offsets[0], limit)))
      case Failure(e) => Failure(e)
      case Success(page) =>
        var r := FoldPages(api, productId, limit, offsets[1..], FoldBest(best, Candidates(page)));
        assert forall k :: 1 <= k < |offsets| ==> offsets[k] == offsets[1..][k - 1];
        r
  }

  /** Reference for the follow-up loop without any folding: every page at
      `offsets`, in order, or the error of the first page that fails. */
  function FetchAll(api: Api, productId: string, limit: int, offsets: seq<int>): (r: Result<seq<Parsed>, Failure>)
    ensures r.Success? ==> |r.value| == |offsets|
    ensures r.Success? ==> forall k :: 0 <= k < |offsets| ==>
      FetchPage(api, productId, Some(PageQuery(offsets[k], limit))) == Success(r.value[k])
    ensures r.Success? <==> forall k :: 0 <= k < |offsets| ==> FetchPage(api, productId, Some(PageQuery(offsets[k], limit))).Success?
    ensures r.Failure? ==>
      exists k :: 0 <= k < |offsets|
        && FetchPage(api, productId, Some(PageQuery(offsets[k], limit))) == Failure(r.error)
        && (forall j :: 0 <= j < k ==> FetchPage(api, productId, Some(PageQuery(offsets[j], limit))).Success?)
    decreases |offsets|
  {
    if offsets == [] then Success([])
    else
      match FetchPage(api, productId, Some(PageQuery(offsets[0], limit)))
      case Failure(e) => Failure(e)
      case Success(page) =>
        match FetchAll(api, productId, limit, offsets[1..])
        case Failure(e) => Failure(e)
        case Success(pages) =>
          assert forall k :: 1 <= k < |offsets| ==> offsets[k] == offsets[1..][k - 1];
          Success([page] + pages)
  }

  /** The candidates of several pages, in page order. */
  function AllCandidates(pages: seq<Parsed>): (cs: seq<ProductPrice>)
    ensures forall c :: c in cs ==> c.price > 0.0
  {
    if pages == [] then [] else Candidates(pages[0]) + AllCandidates(pages[1..])
  }

  /** Folding page by page as the pages arrive is folding all their candidates at once. */
  lemma {:induction false} FoldPagesIsBatchFold(api: Api, productId: string, limit: int, offsets: seq<int>, best: Option<ProductPrice>)
    ensures FetchAll(api, productId, limit, offsets).Failure? ==>
      FoldPages(api, productId, limit, offsets, best) == Failure(FetchAll(api, productId, limit, offsets).error)
    ensures FetchAll(api, productId, limit, offsets).Success? ==>
      FoldPages(api, productId, limit, offsets, best)
        == Success(FoldBest(best, AllCandidates(FetchAll(api, productId, limit, offsets).value)))
    decreases |offsets|
  {
    if offsets != [] {
      var first := FetchPage(api, productId, Some(PageQuery(offsets[0], limit)));
      if first.Success? {
        var best' := FoldBest(best, Candidates(first.value));
        FoldPagesIsBatchFold(api, productId, limit, offsets[1..], best');
        var rest := FetchAll(api, productId, limit, offsets[1..]);
        if rest.Success? {
          var pages := [first.value] + rest.value;
          assert pages[0] == first.value && pages[1..] == rest.value;
          assert AllCandidates(pages) == Candidates(first.value) + AllCandidates(rest.value);
          FoldBestAppend(best, Candidates(first.value), AllCandidates(rest.value));
        }
      }
    }
  }

  /** Reference for the whole listings walk: the first page and every
      follow-up page its paging calls for, or the first error. */
  function PagesFetched(api: Api, productId: string): (r: Result<seq<Parsed>, Failure>)
    ensures r.Success? ==> |r.value| >= 1 && |r.value| == 1 + |FollowUpOffsets(PagingOf(r.value[0]))|
    ensures FetchPage(api, productId, None).Failure? ==> r == Failure(FetchPage(api, productId, None).error)
    ensures r.Success? ==> FetchPage(api, productId, None) == Success(r.value[0])
    ensures r.Success? ==>
      var p := PagingOf(r.value[0]);
      forall k :: 0 <= k < |FollowUpOffsets(p)| ==>
        FetchPage(api, productId, Some(PageQuery(FollowUpOffsets(p)[k], p.limit))) == Success(r.value[k + 1])
    ensures FetchPage(api, productId, None).Success? ==>
      var p := PagingOf(FetchPage(api, productId, None).value);
      var os := FollowUpOffsets(p);
      (r.Success? <==> (forall k :: 0 <= k < |os| ==> FetchPage(api, productId, Some(PageQuery(os[k], p.limit))).Success?))
      && (r.Failure? ==>
            exists k :: 0 <= k < |os|
              && FetchPage(api, productId, Some(PageQuery(os[k], p.limit))) == Failure(r.error)
              && (forall j :: 0 <= j < k ==> FetchPage(api, productId, Some(PageQuery(os[j], p.limit))).Success?))
  {
    match FetchPage(api, productId, None)
    case Failure(e) => Failure(e)
    case Success(first) =>
      var paging := PagingOf(first);
      match FetchAll(api, productId, paging.limit, FollowUpOffsets(paging))
      case Failure(e) => Failure(e)
      case Success(rest) =>
        var pages := [first] + rest;
        assert pages[0] == first;
        assert forall k :: 0 <= k < |rest| ==> pages[k + 1] == rest[k];
        Success(pages)
  }

  /** Everything before validation: the cheapest eligible listing over all
      pages, or the first error, or "no active items" when nothing is eligible. */
  function BestCandidate(api: Api, productId: string): (r: Result<ProductPrice, Failure>)
    ensures r.Success? ==> r.value.price > 0.0
    ensures FetchPage(api, productId, None).Failure? ==> r == Failure(FetchPage(api, productId, None).error)
  {
    match FetchPage(api, productId, None)
    case Failure(e) => Failure(e)
    case Success(first) =>
      var paging := PagingOf(first);
      match FoldPages(api, productId, paging.limit, FollowUpOffsets(paging), FoldBest(None, Candidates(first)))
      case Failure(e) => Failure(e)
      case Success(None) => Failure(NoActiveItems(productId))
      case Success(Some(best)) => Success(best)
  }

  /** The resolved candidate is the first cheapest eligible listing over every
      page; any failing page fails the whole resolution with no partial
      result; and when no listing is eligible the call fails with
      "no active items". */
  lemma BestCandidateIsFirstMinimum(api: Api, productId: string)
    ensures PagesFetched(api, productId).Failure? ==>
      BestCandidate(api, productId) == Failure(PagesFetched(api, productId).error)
    ensures PagesFetched(api, productId).Success? && AllCandidates(PagesFetched(api, productId).value) == [] ==>
      BestCandidate(api, productId) == Failure(NoActiveItems(productId))
    ensures PagesFetched(api, productId).Success? && AllCandidates(PagesFetched(api, productId).value) != [] ==>
      BestCandidate(api, productId).Success?
      && IsFirstMinimum(None, AllCandidates(PagesFetched(api, productId).value), Some(BestCandidate(api, productId).value))
  {
    var first := FetchPage(api, productId, None);
    if first.Success? {
      var paging := PagingOf(first.value);
      var offsets := FollowUpOffsets(paging);
      FoldPagesIsBatchFold(api, productId, paging.limit, offsets, FoldBest(None, Candidates(first.value)));
      var rest := FetchAll(api, productId, paging.limit, offsets);
      if rest.Success? {
        var pages := [first.value] + rest.value;
        assert pages[0] == first.value && pages[1..] == rest.value;
        var all := AllCandidates(pages);
        assert all == Candidates(first.value) + AllCandidates(rest.value);
        FoldBestAppend(None, Candidates(first.value), AllCandidates(rest.value));
        if all != [] {
          FoldBestIsFirstMinimum(None, all);
        }
      }
    }
  }

  /** The outcome of the confirmation lookup. */
  datatype Verdict = Accept | Reject(status: string) | NilDereference

  /** The confirmation is a 200 response whose body decodes as an item that is not "active". */
  predicate ConfirmedInactive(reply: Reply<Decode<Item>>)
  {
    reply.Response? && reply.status == StatusOK && reply.body.Some?
    && reply.body.value.Decoded? && reply.body.value.value.status != Active
  }

  /** The confirmation policy as written: a transport error leaves `resp` nil
      and the `else` branch calls `resp.Body.Close()` on it. */
  function ConfirmAsWritten(reply: Reply<Decode<Item>>): (v: Verdict)
    ensures v.NilDereference? <==> reply.TransportFailed?
    ensures v.Reject? <==> ConfirmedInactive(reply)
  {
    match reply
    case RequestFailed => Accept
    case TransportFailed => NilDereference
    case Response(code, body) =>
      if code == StatusOK && body.Some? && body.value.Decoded? && body.value.value.status != Active
      then Reject(body.value.value.status)
      else Accept
  }

  /** The confirmation policy as intended: only a decodable 200 answer saying
      the listing is not "active" rejects; a failure to build the request, a
      transport error, another status or an undecodable body accept. */
  function Confirm(reply: Reply<Decode<Item>>): (v: Verdict)
    ensures !v.NilDereference?
    ensures v.Reject? <==> ConfirmedInactive(reply)
    ensures v.Reject? ==> v.status == reply.body.value.value.status
  {
    match reply
    case RequestFailed => Accept
    case TransportFailed => Accept
    case Response(code, body) =>
      if code == StatusOK && body.Some? && body.value.Decoded? && body.value.value.status != Active
      then Reject(body.value.value.status)
      else Accept
  }

  /** The two policies differ only on a transport error. */
  lemma ConfirmDiffersOnlyOnTransport(reply: Reply<Decode<Item>>)
    ensures reply.TransportFailed? <==> ConfirmAsWritten(reply) != Confirm(reply)
  {
  }

  /** Re-checks the winner once; no other candidate is ever tried. */
  function Validate(api: Api, best: ProductPrice): (r: Result<ProductPrice, Failure>)
    ensures r.Success? ==> r.value == best
    ensures r.Failure? <==> best.itemId != "" && ConfirmedInactive(api.items(best.itemId))
    ensures r.Failure? ==> r.error == NotActive(best.itemId, api.items(best.itemId).body.value.value.status)
  {
    if best.itemId == "" then Success(best)
    else
      match Confirm(api.items(best.itemId))
      case Reject(status) => Failure(NotActive(best.itemId, status))
      case _ => Success(best)
  }

  /** How a call ends as written: with a returned result, or with a panic
      that unwinds out of the resolver. */
  datatype Outcome = Returned(result: Result<ProductPrice, Failure>) | Panicked

  /** The confirmation step as written, on `ConfirmAsWritten`: a transport
      error of the lookup panics instead of returning anything. */
  function ValidateAsWritten(api: Api, best: ProductPrice): (o: Outcome)
    ensures o.Panicked? <==> best.itemId != "" && api.items(best.itemId).TransportFailed?
    ensures o.Returned? && o.result.Success? ==> o.result.value == best
    ensures o.Returned? ==> (o.result.Failure? <==> best.itemId != "" && ConfirmedInactive(api.items(best.itemId)))
  {
    if best.itemId == "" then Returned(Success(best))
    else
      match ConfirmAsWritten(api.items(best.itemId))
      case NilDereference => Panicked
      case Reject(status) => Returned(Failure(NotActive(best.itemId, status)))
      case Accept => Returned(Success(best))
  }

  /** The corrected validation returns what the code as written returns
      whenever the code returns at all; they part only where the code panics. */
  lemma ValidateAgreesUnlessPanic(api: Api, best: ProductPrice)
    ensures ValidateAsWritten(api, best).Returned? ==>
      ValidateAsWritten(api, best).result == Validate(api, best)
    ensures ValidateAsWritten(api, best).Panicked? ==> Validate(api, best) == Success(best)
  {
  }

  /** The best price of a product with the winning listing's id, title and
      permalink. */
  function GetProductBestPriceWithLink(api: Api, productId: string): (r: Result<ProductPrice, Failure>)
    ensures r.Success? ==> r == BestCandidate(api, productId) && r.value.price > 0.0
    ensures BestCandidate(api, productId).Failure? ==> r == BestCandidate(api, productId)
    ensures BestCandidate(api, productId).Success? && r.Failure? ==>
      r.error.NotActive? && r.error.itemId == BestCandidate(api, productId).value.itemId
    ensures BestCandidate(api, productId).Success? ==>
      var best := BestCandidate(api, productId).value;
      (r.Failure? <==> best.itemId != "" && ConfirmedInactive(api.items(best.itemId)))
  {
    match BestCandidate(api, productId)
    case Failure(e) => Failure(e)
    case Success(best) => Validate(api, best)
  }

  /** The follow-up loop of `GetProductBestPrice`: the same pages, folding prices only. */
  function FoldPagePrices(api: Api, productId: string, limit: int, offsets: seq<int>, lowest: Option<real>)
    : (r: Result<Option<real>, Failure>)
    ensures r.Success? && lowest.Some? ==> r.value.Some? && r.value.value <= lowest.value
    ensures r.Failure? ==> exists k :: 0 <= k < |offsets| && FailedAt(r.error, ProductItemsPage(productId, offsets[k]))
    decreases |offsets|
  {
    if offsets == [] then Success(lowest)
    else
      match FetchPage(api, productId, Some(PageQuery(offsets[0], limit)))
      case Failure(e) => Failure(e)
      case Success(page) =>
        var r := FoldPagePrices(api, productId, limit, offsets[1..], FoldLowest(lowest, Prices(Candidates(page))));
        assert forall k :: 1 <= k < |offsets| ==> offsets[k] == offsets[1..][k - 1];
        r
  }

  /** The lowest price of a product, without validation. */
  function GetProductBestPrice(api: Api, productId: string): (r: Result<real, Failure>)
    ensures FetchPage(api, productId, None).Failure? ==> r == Failure(FetchPage(api, productId, None).error)
    ensures r.Failure? && FetchPage(api, productId, None).Success? ==>
      r.error == NoActiveItems(productId) || exists o :: FailedAt(r.error, ProductItemsPage(productId, o))
  {
    match FetchPage(api, productId, None)
    case Failure(e) => Failure(e)
    case Success(first) =>
      var paging := PagingOf(first);
      match FoldPagePrices(api, productId, paging.limit, FollowUpOffsets(paging), FoldLowest(None, Prices(Candidates(first))))
      case Failure(e) => Failure(e)
      case Success(None) => Failure(NoActiveItems(productId))
      case Success(Some(p)) => Success(p)
  }

  function PriceResult(r: Result<Option<ProductPrice>, Failure>): Result<Option<real>, Failure>
  {
    match r
    case Failure(e) => Failure(e)
    case Success(b) => Success(PriceOf(b))
  }

  lemma {:induction false} FoldPagePricesTracksFoldPages(api: Api, productId: string, limit: int, offsets: seq<int>, best: Option<ProductPrice>)
    ensures FoldPagePrices(api, productId, limit, offsets, PriceOf(best))
      == PriceResult(FoldPages(api, productId, limit, offsets, best))
    decreases |offsets|
  {
    if offsets != [] {
      var page := FetchPage(api, productId, Some(PageQuery(offsets[0], limit)));
      if page.Success? {
        FoldLowestTracksFoldBest(best, Candidates(page.value));
        FoldPagePricesTracksFoldPages(api, productId, limit, offsets[1..], FoldBest(best, Candidates(page.value)));
      }
    }
  }

  /** `GetProductBestPrice` returns the price of the candidate
      `GetProductBestPriceWithLink` validates, and fails exactly when that
      candidate cannot be found, with the same error. */
  lemma BestPriceIsCandidatePrice(api: Api, productId: string)
    ensures BestCandidate(api, productId).Failure? ==>
      GetProductBestPrice(api, productId) == Failure(BestCandidate(api, productId).error)
    ensures BestCandidate(api, productId).Success? ==>
      GetProductBestPrice(api, productId) == Success(BestCandidate(api, productId).value.price)
  {
    var first := FetchPage(api, productId, None);
    if first.Success? {
      var paging := PagingOf(first.value);
      var best := FoldBest(None, Candidates(first.value));
      FoldLowestTracksFoldBest(None, Candidates(first.value));
      FoldPagePricesTracksFoldPages(api, productId, paging.limit, FollowUpOffsets(paging), best);
    }
  }
}

=== FILE: scenarios.dfy ===
/** Concrete resolutions worked through end to end. */
module Scenarios {
  import opened Wrappers
  import opened Records
  import opened Shape
  import opened Accumulator
  import opened Pagination
  import opened Transport
  import opened Resolver

  function Listing(id: string, price: real, status: string): Item
  {
    Item(id, "Listing " + id, "MLB1055", price, "BRL", 1, 0, "new", "https://produto.mercadolivre.com.br/" + id, "", 7, status)
  }

  /** An API whose listings endpoint always answers 200 with `body` and whose
      `/items/{id}` endpoint answers `confirmation`. */
  function SinglePageApi(body: ListingsBody, confirmation: Reply<Decode<Item>>): Api
  {
    Api(
      (productId: string, query: Option<PageQuery>) => Response(StatusOK, Some(body)),
      (id: string) => confirmation,
      (id: string) => TransportFailed,
      (id: string) => TransportFailed)
  }

  /** One unpaged wrapped page: A at 100 active, B at 80 inactive. B is
      cheaper but ineligible, so A wins and its confirmation accepts it. */
  lemma WrappedPageResolvesToActiveListing()
    ensures GetProductBestPriceWithLink(
        SinglePageApi(JsonObject(Present([Listing("A", 100.0, Active), Listing("B", 80.0, "inactive")]), Absent, Absent),
                      Response(StatusOK, Some(Decoded(Listing("A", 100.0, Active))))),
        "MLB123")
      == Success(ProductPrice(100.0, "A", "Listing A", "https://produto.mercadolivre.com.br/A"))
  {
    var a := Listing("A", 100.0, Active);
    var items := [a, Listing("B", 80.0, "inactive")];
    var api := SinglePageApi(JsonObject(Present(items), Absent, Absent), Response(StatusOK, Some(Decoded(a))));
    assert FetchPage(api, "MLB123", None) == Success(Wrapped(items));
    assert ItemCandidates(items) == [Offer(a)] by {
      assert !Eligible(items[1]);
      assert ItemCandidates(items[1..]) == [];
    }
    assert FoldBest(None, [Offer(a)]) == Some(Offer(a));
    assert BestCandidate(api, "MLB123") == Success(Offer(a));
    assert Confirm(api.items("A")) == Accept;
    assert Validate(api, Offer(a)) == Success(Offer(a));
    assert "Listing " + "A" == "Listing A";
    assert "https://produto.mercadolivre.com.br/" + "A" == "https://produto.mercadolivre.com.br/A";
  }

  /** When the winner's confirmation says "paused" the call fails, although
      a dearer active listing exists: there is no second-best fallback. */
  lemma PausedWinnerFailsClosed()
    ensures GetProductBestPriceWithLink(
        SinglePageApi(JsonArray(Some([Listing("A", 100.0, Active), Listing("C", 120.0, Active)])),
                      Response(StatusOK, Some(Decoded(Listing("A", 100.0, "paused"))))),
        "MLB123")
      == Failure(NotActive("A", "paused"))
  {
    var items := [Listing("A", 100.0, Active), Listing("C", 120.0, Active)];
    assert ItemCandidates(items) == [Offer(items[0]), Offer(items[1])] by {
      assert ItemCandidates(items[1..]) == [Offer(items[1])] by {
        assert items[1..][1..] == [];
      }
    }
  }

  /** The three pages of a paged product with total 25 and limit 10. The
      cheapest row is on the last page; the later pages report a different
      paging, which is ignored. */
  function ThreePageListings(productId: string, query: Option<PageQuery>): Reply<ListingsBody>
  {
    if query == None then
      Response(StatusOK, Some(JsonObject(Absent, Present(Paging(25, 0, 10)),
        Present([PagedResult("A", 90.0, "new"), PagedResult("Z", 0.0, "new")]))))
    else if query == Some(PageQuery(10, 10)) then
      Response(StatusOK, Some(JsonObject(Absent, Present(Paging(1000, 0, 1)),
        Present([PagedResult("B", 95.0, "used")]))))
    else if query == Some(PageQuery(20, 10)) then
      Response(StatusOK, Some(JsonObject(Absent, Absent,
        Present([PagedResult("C", 70.0, "used"), PagedResult("D", 70.0, "new")]))))
    else
      Response(404, None)
  }

  function ThreePageApi(): Api
  {
    Api(
      ThreePageListings,
      (id: string) => Response(StatusOK, Some(Decoded(Listing(id, 70.0, Active)))),
      (id: string) => TransportFailed,
      (id: string) => TransportFailed)
  }

  /** All three pages are folded before selection; the tie at 70 keeps the
      first-seen row C, and a paged winner has no title or permalink. */
  lemma PagedProductConsidersEveryPage()
    ensures GetProductBestPriceWithLink(ThreePageApi(), "MLB9") == Success(ProductPrice(70.0, "C", "", ""))
  {
    TwentyFiveByTen();
    var api := ThreePageApi();
    var first := Paged(Paging(25, 0, 10), [PagedResult("A", 90.0, "new"), PagedResult("Z", 0.0, "new")]);
    assert FetchPage(api, "MLB9", None) == Success(first);
    var p1 := [PagedResult("A", 90.0, "new"), PagedResult("Z", 0.0, "new")];
    var p3 := [PagedResult("C", 70.0, "used"), PagedResult("D", 70.0, "new")];
    assert ResultCandidates(p1) == [PagedOffer(p1[0])] by {
      assert ResultCandidates(p1[1..]) == [];
    }
    assert ResultCandidates(p3) == [PagedOffer(p3[0]), PagedOffer(p3[1])] by {
      assert ResultCandidates(p3[1..]) == [PagedOffer(p3[1])] by {
        assert p3[1..][1..] == [];
      }
    }
    assert FoldBest(None, Candidates(first)) == Some(ProductPrice(90.0, "A", "", ""));
    var second := Paged(Paging(1000, 0, 1), [PagedResult("B", 95.0, "used")]);
    var third := Paged(NoPaging, p3);
    assert FetchPage(api, "MLB9", Some(PageQuery(10, 10))) == Success(second);
    assert FetchPage(api, "MLB9", Some(PageQuery(20, 10))) == Success(third);
    assert Candidates(second) == [PagedOffer(PagedResult("B", 95.0, "used"))];
    assert FoldBest(Some(ProductPrice(90.0, "A", "", "")), Candidates(second)) == Some(ProductPrice(90.0, "A", "", ""));
    assert FoldBest(Some(ProductPrice(90.0, "A", "", "")), Candidates(third)) == Some(ProductPrice(70.0, "C", "", ""));
    assert FoldPages(api, "MLB9", 10, [20], Some(ProductPrice(90.0, "A", "", "")))
      == Success(Some(ProductPrice(70.0, "C", "", ""))) by {
      assert [20][1..] == [];
    }
    assert FoldPages(api, "MLB9", 10, [10, 20], Some(ProductPrice(90.0, "A", "", "")))
      == Success(Some(ProductPrice(70.0, "C", "", ""))) by {
      assert [10, 20][1..] == [20];
    }
    assert BestCandidate(api, "MLB9") == Success(ProductPrice(70.0, "C", "", ""));
    assert Confirm(api.items("C")) == Accept;
  }

  /** A body in none of the three shapes fails the call as an unknown format. */
  lemma EmptyListsAreUnknownFormat()
    ensures GetProductBestPriceWithLink(
        SinglePageApi(JsonObject(Present([]), Present(Paging(3, 0, 1)), Absent), Response(StatusOK, None)),
        "MLB5")
      == Failure(UnknownFormat(ProductItems("MLB5")))
  {
  }
}

=== FILE: shape.dfy ===
/** Shape selection for the body of `/products/{id}/items`: the local
    `processBody` of `GetProductBestPriceWithLink` tries three decodings in a
    fixed order and keeps the first that succeeds with a non-empty list. */
module Shape {
  import opened Wrappers
  import opened Records

  /** What decoding one key of a JSON object into a typed Go field gives.
      `Absent` covers a missing key and a JSON null (the field keeps its zero
      value); `Malformed` covers a value of the wrong type, which makes
      `json.Unmarshal` report an error. */
  datatype Field<T> = Absent | Malformed | Present(value: T)

  /** The decoded body of a listings response. A top-level array either
      decodes as `[]Item` or not; an object is seen through its three keys;
      everything else (null, a scalar, bytes that are not JSON) is `OtherJson`. */
  datatype ListingsBody =
    | JsonArray(elements: Option<seq<Item>>)
    | JsonObject(items: Field<seq<Item>>, paging: Field<Paging>, results: Field<seq<PagedResult>>)
    | OtherJson

  /** The accepted shape of a page, tagged explicitly. */
  datatype Parsed =
    | Wrapped(listings: seq<Item>)
    | Bare(listings: seq<Item>)
    | Paged(paging: Paging, results: seq<PagedResult>)

  /** The decoded value of a key, or the zero value when the key was absent. */
  function FieldOr<T>(f: Field<T>, zero: T): T
  {
    if f.Present? then f.value else zero
  }

  /** Attempt 1 succeeds: the body decodes as `{"items": [...]}` and the list is non-empty. */
  predicate WrapperAccepts(body: ListingsBody)
  {
    body.JsonObject? && !body.items.Malformed? && |FieldOr(body.items, [])| > 0
  }

  /** Attempt 2 succeeds: the body decodes as `[]Item` and the list is non-empty. */
  predicate BareAccepts(body: ListingsBody)
  {
    body.JsonArray? && body.elements.Some? && |body.elements.value| > 0
  }

  /** Attempt 3 succeeds: the body decodes as `{paging, results}` and `results` is non-empty. */
  predicate PagedAccepts(body: ListingsBody)
  {
    body.JsonObject? && !body.paging.Malformed? && !body.results.Malformed?
    && |FieldOr(body.results, [])| > 0
  }

  /** The shape of a body, or `None` for "unknown items response format". */
  function Classify(body: ListingsBody): (r: Option<Parsed>)
    ensures r.None? <==> !WrapperAccepts(body) && !BareAccepts(body) && !PagedAccepts(body)
    ensures r.Some? && r.value.Wrapped? <==> WrapperAccepts(body)
    ensures r.Some? && r.value.Bare? <==> !WrapperAccepts(body) && BareAccepts(body)
    ensures r.Some? && r.value.Paged? <==> !WrapperAccepts(body) && !BareAccepts(body) && PagedAccepts(body)
    ensures r.Some? && !r.value.Paged? ==> |r.value.listings| > 0
    ensures r.Some? && r.value.Paged? ==> |r.value.results| > 0
    ensures r.Some? && r.value.Wrapped? ==> body.items == Present(r.value.listings)
    ensures r.Some? && r.value.Bare? ==> body.elements == Some(r.value.listings)
    ensures r.Some? && r.value.Paged? ==>
      body.results == Present(r.value.results) && r.value.paging == FieldOr(body.paging, NoPaging)
  {
    if WrapperAccepts(body) then Some(Wrapped(body.items.value))
    else if BareAccepts(body) then Some(Bare(body.elements.value))
    else if PagedAccepts(body) then Some(Paged(FieldOr(body.paging, NoPaging), body.results.value))
    else None
  }

  /** An object that has both a non-empty `items` list and a non-empty
      `results` page is read as the wrapper shape, so its paging is ignored. */
  lemma WrapperShadowsPaging(items: seq<Item>, paging: Paging, results: seq<PagedResult>)
    requires |items| > 0 && |results| > 0
    ensures Classify(JsonObject(Present(items), Present(paging), Present(results))) == Some(Wrapped(items))
  {
  }

  /** A listing the wrapped and bare shapes may fold: positive price and status "active". */
  predicate Eligible(it: Item)
  {
    it.price > 0.0 && it.status == Active
  }

  /** The candidate a wrapped or bare listing offers. */
  function Offer(it: Item): ProductPrice
  {
    ProductPrice(it.price, it.id, it.title, it.permalink)
  }

  /** The candidate a paged row offers: it has no title or permalink. */
  function PagedOffer(r: PagedResult): ProductPrice
  {
    ProductPrice(r.price, r.itemId, "", "")
  }

  /** The candidates of a wrapped or bare page, in page order: listings with
      price <= 0 or a status other than "active" are skipped. */
  function ItemCandidates(items: seq<Item>): (cs: seq<ProductPrice>)
    ensures |cs| <= |items|
    ensures forall c :: c in cs <==> exists it :: it in items && Eligible(it) && c == Offer(it)
  {
    if items == [] then []
    else
      var rest := ItemCandidates(items[1..]);
      assert forall it :: it in items <==> it == items[0] || it in items[1..];
      if Eligible(items[0]) then [Offer(items[0])] + rest else rest
  }

  /** The candidates of a paged page, in page order: only rows with price <= 0
      are skipped; the status is never consulted. */
  function ResultCandidates(results: seq<PagedResult>): (cs: seq<ProductPrice>)
    ensures |cs| <= |results|
    ensures forall c :: c in cs <==> exists r :: r in results && r.price > 0.0 && c == PagedOffer(r)
  {
    if results == [] then []
    else
      var rest := ResultCandidates(results[1..]);
      assert forall r :: r in results <==> r == results[0] || r in results[1..];
      if results[0].price > 0.0 then [PagedOffer(results[0])] + rest else rest
  }

  /** Candidates keep page order: the candidates of two consecutive runs of
      listings are those of the first run followed by those of the second. */
  lemma {:induction false} ItemCandidatesAppend(xs: seq<Item>, ys: seq<Item>)
    ensures ItemCandidates(xs + ys) == ItemCandidates(xs) + ItemCandidates(ys)
    decreases |xs|
  {
    if xs != [] {
      assert (xs + ys)[0] == xs[0] && (xs + ys)[1..] == xs[1..] + ys;
      ItemCandidatesAppend(xs[1..], ys);
    } else {
      assert xs + ys == ys;
    }
  }

  /** Paged candidates keep page order in the same way. */
  lemma {:induction false} ResultCandidatesAppend(xs: seq<PagedResult>, ys: seq<PagedResult>)
    ensures ResultCandidates(xs + ys) == ResultCandidates(xs) + ResultCandidates(ys)
    decreases |xs|
  {
    if xs != [] {
      assert (xs + ys)[0] == xs[0] && (xs + ys)[1..] == xs[1..] + ys;
      ResultCandidatesAppend(xs[1..], ys);
    } else {
      assert xs + ys == ys;
    }
  }

  /** The candidates a parsed page contributes to the running minimum. */
  function Candidates(page: Parsed): (cs: seq<ProductPrice>)
    ensures forall c :: c in cs ==> c.price > 0.0
    ensures page.Paged? ==> forall c :: c in cs ==> c.title == "" && c.permalink == ""
    ensures !page.Paged? ==> forall c :: c in cs ==> exists it :: it in page.listings && it.status == Active && c == Offer(it)
  {
    match page
    case Wrapped(items) => ItemCandidates(items)
    case Bare(items) => ItemCandidates(items)
    case Paged(_, results) => ResultCandidates(results)
  }

  /** The paged row a listing would appear as. */
  function AsPagedResult(it: Item): PagedResult
  {
    PagedResult(it.id, it.price, it.condition)
  }

  function AsPagedResults(items: seq<Item>): (rs: seq<PagedResult>)
    ensures |rs| == |items|
    ensures forall i :: 0 <= i < |items| ==> rs[i] == AsPagedResult(items[i])
  {
    if items == [] then [] else [AsPagedResult(items[0])] + AsPagedResults(items[1..])
  }

  /** A candidate without its title and permalink, as the paged shape reports it. */
  function Strip(c: ProductPrice): ProductPrice
  {
    ProductPrice(c.price, c.itemId, "", "")
  }

  function StripAll(cs: seq<ProductPrice>): (ss: seq<ProductPrice>)
    ensures |ss| == |cs|
    ensures forall i :: 0 <= i < |cs| ==> ss[i] == Strip(cs[i])
  {
    if cs == [] then [] else [Strip(cs[0])] + StripAll(cs[1..])
  }

  /** The same active listings delivered in any of the three shapes yield the
      same candidates, up to the title and permalink the paged shape lacks. */
  lemma {:induction false} ShapesAgreeOnActiveListings(items: seq<Item>, paging: Paging)
    requires forall i :: 0 <= i < |items| ==> items[i].status == Active
    ensures Candidates(Wrapped(items)) == Candidates(Bare(items))
    ensures StripAll(Candidates(Wrapped(items))) == Candidates(Paged(paging, AsPagedResults(items)))
  {
    if items != [] {
      ShapesAgreeOnActiveListings(items[1..], paging);
      assert AsPagedResults(items)[1..] == AsPagedResults(items[1..]);
    }
  }
}

=== FILE: token_store.dfy ===
/** The in-memory OAuth access-token store of the handlers package and the
    token effects of its HTTP handlers, modelled sequentially (the store's
    read-write mutex only serialises access to one string). */
module TokenStore {
  import opened Wrappers

  /** The process-wide access token; "" means none. */
  datatype Store = Store(current: string)

  /** The token in memory; "" exactly when the store holds none. */
  function GetCurrentToken(s: Store): (t: string)
    ensures t == "" <==> s == Store("")
  {
    s.current
  }

  function SetCurrentToken(s: Store, token: string): (s': Store)
    ensures GetCurrentToken(s') == token
  {
    s.(current := token)
  }

  /** The store holds one value and nothing else: setting what was read
      changes nothing, and the last set wins. */
  lemma GetSetRoundTrip(s: Store, t1: string, t2: string)
    ensures SetCurrentToken(s, GetCurrentToken(s)) == s
    ensures SetCurrentToken(SetCurrentToken(s, t1), t2) == SetCurrentToken(s, t2)
  {
  }

  /** The token a request is served with, and the store afterwards. */
  datatype Lookup = Lookup(token: string, store: Store)

  /** Token precedence: memory, then the `ml_access_token` cookie (promoted
      into memory), then the `ML_ACCESS_TOKEN` environment value. `cookie` is
      `None` when the request carries no such cookie. */
  function GetTokenFromContext(s: Store, cookie: Option<string>, env: string): (r: Lookup)
    ensures GetCurrentToken(s) != "" ==> r == Lookup(GetCurrentToken(s), s)
    ensures GetCurrentToken(s) == "" && cookie.Some? && cookie.value != "" ==>
      r.token == cookie.value && GetCurrentToken(r.store) == cookie.value
    ensures GetCurrentToken(s) == "" && (cookie.None? || cookie.value == "") ==> r == Lookup(env, s)
    ensures r.token == "" <==> GetCurrentToken(s) == "" && (cookie.None? || cookie.value == "") && env == ""
  {
    if GetCurrentToken(s) != "" then Lookup(GetCurrentToken(s), s)
    else if cookie.Some? && cookie.value != "" then Lookup(cookie.value, SetCurrentToken(s, cookie.value))
    else Lookup(env, s)
  }

  /** Once a lookup has left a token in memory, every later lookup returns
      that token and changes nothing, whatever cookie or environment it sees. */
  lemma LookupIsSticky(s: Store, cookie: Option<string>, env: string, cookie': Option<string>, env': string)
    requires GetCurrentToken(GetTokenFromContext(s, cookie, env).store) != ""
    ensures var first := GetTokenFromContext(s, cookie, env);
      GetTokenFromContext(first.store, cookie', env') == first
  {
  }

  /** What a handler does to the `ml_access_token` cookie. */
  datatype CookieEffect = Untouched | SetTo(value: string) | Cleared

  /** The outcome of the authorization-code exchange, which is done by a
      collaborator outside this model. */
  datatype Exchange = ExchangeFailed | Exchanged(accessToken: string, userId: int)

  /** A handler's HTTP status, its effect on the token cookie, and the store afterwards. */
  datatype HandlerResult = HandlerResult(status: int, cookie: CookieEffect, store: Store)

  const StatusFound := 302
  const StatusBadRequest := 400
  const StatusInternalError := 500

  /** The OAuth callback. `configured` says whether the OAuth client exists;
      `exchange` is consulted only for a non-empty `code`. */
  function HandleCallback(s: Store, configured: bool, code: string, exchange: Exchange): (r: HandlerResult)
    ensures r.status == StatusFound <==> configured && code != "" && exchange.Exchanged?
    ensures r.status == StatusFound ==>
      GetCurrentToken(r.store) == exchange.accessToken && r.cookie == SetTo(exchange.accessToken)
    ensures r.status != StatusFound ==> r.store == s && r.cookie == Untouched
    ensures !configured ==> r.status == StatusInternalError
    ensures configured && code == "" ==> r.status == StatusBadRequest
    ensures configured && code != "" && exchange.ExchangeFailed? ==> r.status == StatusInternalError
  {
    if !configured then HandlerResult(StatusInternalError, Untouched, s)
    else if code == "" then HandlerResult(StatusBadRequest, Untouched, s)
    else match exchange
      case ExchangeFailed => HandlerResult(StatusInternalError, Untouched, s)
      case Exchanged(token, _) => HandlerResult(StatusFound, SetTo(token), SetCurrentToken(s, token))
  }

  /** Logout clears the in-memory token and the cookie. */
  function HandleLogout(s: Store): (r: HandlerResult)
    ensures GetCurrentToken(r.store) == "" && r.cookie == Cleared && r.status == 200
  {
    HandlerResult(200, Cleared, SetCurrentToken(s, ""))
  }

  /** The status endpoint reports authenticated exactly when memory holds a token. */
  function HandleAuthStatus(s: Store): (authenticated: bool)
    ensures authenticated <==> GetCurrentToken(s) != ""
  {
    GetCurrentToken(s) != ""
  }

  /** After logout the status is unauthenticated, and a request without the
      (now cleared) cookie falls back to the environment token. */
  lemma LogoutForgetsToken(s: Store, env: string)
    ensures !HandleAuthStatus(HandleLogout(s).store)
    ensures GetTokenFromContext(HandleLogout(s).store, None, env).token == env
  {
  }

  /** The cookie a successful callback writes restores the same token into an
      empty store (after a restart, say), and the status then reports
      authenticated exactly when that token is non-empty. */
  lemma CallbackCookieRestoresToken(s: Store, code: string, token: string, userId: int, env: string)
    requires code != ""
    ensures var r := HandleCallback(s, true, code, Exchanged(token, userId));
      && (HandleAuthStatus(r.store) <==> token != "")
      && (token != "" ==> GetTokenFromContext(Store(""), Some(r.cookie.value), env) == Lookup(token, r.store.(current := token)))
  {
  }
}

=== FILE: transport.dfy ===
/** The HTTP layer as an oracle. Request construction, headers, bearer
    authentication and the ten-second timeout are abstracted into what a
    GET on each endpoint answers. */
module Transport {
  import opened Wrappers
  import opened Records
  import opened Shape

  const StatusOK := 200

  /** What a GET yields: the request could not be built, the round trip
      failed with no response at all (a timeout, a refused connection), or a
      response arrived with a status and a body (`None` when reading the body
      failed). When the client's redirect policy stops a chain of redirects,
      Go returns the last response together with the error; that case is a
      `Response` with its 3xx status and an unreadable body, since it comes
      with a response that can be closed. */
  datatype Reply<B> = RequestFailed | TransportFailed | Response(status: int, body: Option<B>)

  /** What `json.Unmarshal` into a fixed record type makes of a body. */
  datatype Decode<T> = Undecodable | Decoded(value: T)

  /** The `offset` and `limit` query parameters of a follow-up page. */
  datatype PageQuery = PageQuery(offset: int, limit: int)

  /** The endpoints the client reads, each as a total function of its path
      parameters:
      `listings` answers `/products/{id}/items[?offset&limit]`,
      `items` answers `/items/{id}`, `products` answers `/products/{id}`, and
      `highlights` answers `/highlights/MLB/category/{id}`. */
  datatype Api = Api(
    listings: (string, Option<PageQuery>) -> Reply<ListingsBody>,
    items: string -> Reply<Decode<Item>>,
    products: string -> Reply<Decode<Product>>,
    highlights: string -> Reply<Decode<HighlightResponse>>)

  /** The request an error comes from. */
  datatype Stage =
    | ProductItems(productId: string)
    | ProductItemsPage(productId: string, offset: int)
    | HighlightDetail(highlightId: string, kind: string)
    | CategoryHighlights(categoryId: string)

  /** Every error the client returns. */
  datatype Failure =
    | RequestError(stage: Stage)
    | TransportError(stage: Stage)
    | UnexpectedStatus(stage: Stage, code: int)
    | ReadError(stage: Stage)
    | DecodeError(stage: Stage)
    | UnknownFormat(stage: Stage)
    | NoActiveItems(productId: string)
    | NotActive(itemId: string, status: string)

  /** `e` is an error of the request made at `stage`. */
  predicate FailedAt(e: Failure, stage: Stage)
  {
    !e.NoActiveItems? && !e.NotActive? && e.stage == stage
  }
}

=== FILE: wrappers.dfy ===
/** Failure-compatible wrappers used in place of Go's nil values and
    `(value, error)` result pairs. */
module Wrappers {

  /** A value that may be missing: Go's nil or a failed type assertion. */
  datatype Option<+T> = None | Some(value: T)

  /** Either a value or the error that was returned instead of it. */
  datatype Result<+T, +E> = Success(value: T) | Failure(error: E)
}
